=== FILE: README.md ===
# IntentWallet core, modelled in Dafny

IntentWallet is a demo of pay-per-call API access. A user or agent writes a
natural-language intent. The server resolves it to a priced API endpoint.
The user pays in USDC, and after the payment is confirmed the server records
a granted access with the transaction hash as proof.

This project models the deterministic core of that system as pure functions
over immutable values:

- **Intent resolution** (`IntentParser`). The endpoint catalog. The keyword
  resolver used when the language-model classifier is unavailable or fails:
  an ordered list of substring tests on the lower-cased text. The price
  backfill applied to classifier output. The classifier itself is an input
  (`Option<ParsedIntent>`).
- **The in-memory ledger** (`Table`, `Storage`). Four insertion-ordered maps
  (intents, payments, access records, API endpoints), kept as a `Ledger`
  value. Every storage operation is a function from ledger to ledger, with
  frame conditions. Fresh ids and clock readings are parameters.
- **The HTTP routes** (`Routes`):
  - request validation and its error messages;
  - intent parsing;
  - the payment route and its deferred confirm / fulfil / record step;
  - dispatch to the mock APIs, whose payloads are opaque;
  - payment status, access history with its join, analytics counts and the
    rounded success rate;
  - the 402 challenge table.
- **Client helpers** (`Explorers`, `TextFormat`, `HistoryTable`,
  `TransactionStatusView`, `WalletButton`, `NetworkBadge`):
  - the history table's search, ten-per-page pagination and page clamping;
  - text, hash and address shortening;
  - block-explorer links with their fallback chain;
  - the transaction badge;
  - the wallet button's branch;
  - the network badge lookup and its test-id slug.

Shared building blocks are `Wrappers` (`Option`, `Result`), `Seqs`
(`filter`/`find` with their specifications) and `JsString`. `JsString`
covers the JavaScript string semantics the code relies on:
- ASCII `toLowerCase`;
- `includes`;
- `slice` with negative and out-of-range indices, counting characters (see
  below);
- `replace` with a string pattern, which changes only the first occurrence;
- `||` on possibly-empty strings;
- `String(n)`.

Dafny strings are sequences of Unicode scalar values. JavaScript's `length`
and `slice` count UTF-16 code units, where a character beyond U+FFFF (an
emoji, say) takes two. The two counts agree exactly on text within the Basic
Multilingual Plane (`JsString.Utf16Length`). Lengths and cut points in this
model are in characters.

JavaScript's `||` treats the empty string as false. The code uses `||` or
`!x` in several places where a reader might expect "absent":
- the backfill test `!parsed.estimatedPrice`;
- `walletAddress || null`;
- the `txHash || payment.txHash` merging;
- the wallet button's `!address`;
- the transaction card's `status.txHash ?`.

In each of these places the model treats "" exactly like a missing value, as
the code does.

Behaviour of the code worth noting:
- Only `/api/nft-mints` and `/api/gas-price` answer a direct request with 402.
  The other catalog paths do not (`Routes.Challenge`).
- Startup seeding stores five endpoints, while the resolver's catalog lists
  seven. Swap and wallet-balance are not seeded. Each seeded endpoint gets
  its own clock reading.
- Page clamping happens only in the previous/next handlers. The current page
  is not re-clamped when the history list itself shrinks.

## Model

| member | source | states |
|---|---|---|
| IntentParser.MockParseIntent | server/services/intent-parser.ts:89-189 | The resolver is total. It always yields a non-empty endpoint and a non-empty price. Every result is the general descriptor or agrees with a catalog entry on both endpoint and price. |
| IntentParser.ResolveFromFirstMatch | server/services/intent-parser.ts:92-188 | The rule-table scan returns the result of the first rule that fires, or the general descriptor when none fires. |
| IntentParser.MockParseIntentIsRuleScan | server/services/intent-parser.ts:92-188 | The hand-written if-chain equals a first-match scan over the ordered rule table, on every input. |
| IntentParser.FirstMatchWins | server/services/intent-parser.ts:92-180 | When rule i is the first rule whose keywords occur in the lower-cased text, the result is rule i's descriptor. |
| IntentParser.NoMatchIsGeneral | server/services/intent-parser.ts:182-188 | When no rule fires, the result is "General API Request" with empty params and confidence 0.6. |
| IntentParser.CaseInsensitive | server/services/intent-parser.ts:90 | Texts equal up to ASCII case resolve identically. |
| IntentParser.SwapWins | server/services/intent-parser.ts:92-105 | "swap" or "exchange" anywhere gives /api/swap, price 0.5 and confidence 0.85, whatever else the text says. |
| IntentParser.NftNeedsBothWords | server/services/intent-parser.ts:107-118 | The NFT endpoint is chosen if and only if both "nft" and "mint" occur and no swap keyword does. |
| IntentParser.GasRule | server/services/intent-parser.ts:120-130 | "gas" gives Get Gas Prices at /api/gas-price for 0.25, once the swap and NFT rules have not fired. |
| IntentParser.WalletBeforeOracle | server/services/intent-parser.ts:158-180 | Text naming "wallet", "price" and "oracle" (and no earlier keyword) is a wallet-balance request, not a price-oracle request. |
| IntentParser.GasScenario | server/services/intent-parser.ts:120-130 | "Get current gas prices on Base", in any capitalisation, resolves to the gas-price endpoint. |
| IntentParser.NonsenseScenario | server/services/intent-parser.ts:182-188 | "asdkjasdkj nonsense", in any capitalisation, resolves to the general descriptor. |
| IntentParser.NoKeywordIsGeneral | server/services/intent-parser.ts:92-188 | When none of the seven keyword tests succeeds on the lower-cased text, the result is the general descriptor. This includes "nft" without "mint" and "price" without "oracle". |
| IntentParser.PriceFrom | server/services/intent-parser.ts:72-79 | Scanning the catalog keys from a position gives the price of the first key whose dashes-as-spaces form occurs in the lower-cased action, or 0.5 when none does. |
| IntentParser.PriceForAction | server/services/intent-parser.ts:72-79 | The backfilled price belongs to the first catalog key mentioned by the action, or is 0.5 when no key is mentioned. |
| IntentParser.PriceForActionNonEmpty | server/services/intent-parser.ts:75-79 | A backfilled price is never empty. |
| IntentParser.BackfillPrice | server/services/intent-parser.ts:71-80 | A present price is never overwritten. A missing or empty one is replaced by the action's catalog price. Afterwards the price is always present. |
| IntentParser.ParseIntent | server/services/intent-parser.ts:23-86 | With no classifier result, the keyword resolver decides. Otherwise the classifier's action, endpoint, params and confidence are kept. A truthy price is kept too; a missing or empty one becomes the per-action fallback price for the classifier's action. |
| Table.Get | server/storage.ts:125-127 | A lookup finds a value exactly when the key is stored, and returns that value. |
| Table.Set | server/storage.ts:121 | Setting a key stores the value. An existing key keeps its position in the iteration order; a new key is appended. Well-formedness is preserved. |
| Table.SetExistingKeepsOrder | server/storage.ts:148 | Re-setting a present key changes exactly its one position in the listing. |
| Table.SetFreshAppends | server/storage.ts:121 | Setting an absent key appends its value to the listing. |
| Table.FindByIdIsGet | server/storage.ts:225 | In a table whose values carry their own key, the linear search by id equals the key lookup. |
| Seqs.Filter | server/storage.ts:172-176 | `filter` keeps exactly the elements satisfying the predicate, as an order-preserving subsequence. |
| Seqs.FilterKeepsCounts | server/storage.ts:172-176 | `filter` drops no duplicates: the result is a sub-multiset of the input, and each element satisfying the predicate occurs in it exactly as often as in the input. |
| Seqs.FindFirst | server/storage.ts:261-265 | `find` returns nothing exactly when no element matches. Otherwise it returns an element matching at an index before which nothing matches. |
| Storage.CreateIntent | server/storage.ts:114-123 | The stored intent carries every supplied field, the fresh id and the time, and a later get returns it. No other table changes, and no other intent row changes. A fresh id is appended last to the insertion order; an existing id keeps the order. |
| Storage.IntentsByWallet | server/storage.ts:133-137 | Exactly the intents with that wallet, in insertion order. |
| Storage.UpdateIntentStatus | server/storage.ts:139-150 | An unknown id returns nothing and changes nothing. Otherwise only that intent's status changes and the order is kept. |
| Storage.UpdateIntentStatusInPlace | server/storage.ts:139-150 | After a status update, the listing differs from before only at the updated intent's position. |
| Storage.CreatePayment | server/storage.ts:152-162 | The stored payment carries the supplied fields, the fresh id and the time, with no confirmation time. No other table changes, and no other payment row changes. A fresh id is appended last to the insertion order; an existing id keeps the order. |
| Storage.PaymentsByWallet | server/storage.ts:172-176 | Exactly the payments from that wallet, in insertion order. |
| Storage.PaymentsByUnknownWallet | server/storage.ts:172-176 | A wallet with no payments gets the empty list. |
| Storage.UpdatePaymentStatus | server/storage.ts:178-199 | An unknown id changes nothing. Otherwise the status is set. Hash, block number and confirmations are replaced only by non-empty arguments. The confirmation time is stamped exactly when the status is "confirmed". Every other field, and every other record, is unchanged. |
| Storage.CreateAccessRecord | server/storage.ts:201-210 | The stored record carries every supplied field, the fresh id and the time. No other table changes. |
| Storage.AccessRecordsByWallet | server/storage.ts:220-228 | A record is listed if and only if its payment exists and was made from the wallet. Records whose payment is missing are excluded. Order is kept. |
| Storage.FindPaymentIsGet | server/storage.ts:225 | Searching the payment listing by id finds exactly the stored payment. |
| Storage.FindIntentIsGet | server/routes.ts:187 | Searching the intent listing by id finds exactly the stored intent. |
| Storage.UpdateAccessRecordProof | server/storage.ts:230-244 | An unknown id changes nothing. Otherwise only that record's proof hash changes and the order is kept. |
| Storage.UpdateAccessRecordProofInPlace | server/storage.ts:230-244 | After a proof update, the listing differs only at that record's position. |
| Storage.CreateApiEndpoint | server/storage.ts:246-255 | The stored endpoint carries every supplied field, the fresh id and the time. No other table changes. |
| Storage.ApiEndpointByPath | server/storage.ts:261-265 | The first endpoint in insertion order with that path, or nothing when no endpoint has it. |
| Storage.ActiveApiEndpoints | server/storage.ts:271-275 | Exactly the active endpoints, in insertion order. |
| Storage.EmptyLedger | server/storage.ts:51-55 | The four empty maps form a well-formed ledger. |
| Storage.CreateApiEndpointsValid | server/storage.ts:103-111 | Storing endpoints one by one under distinct fresh ids keeps the ledger well-formed and touches only the endpoint table. |
| Storage.CreateApiEndpointsAppends | server/storage.ts:103-111 | Those endpoints are appended to the listing in the order given. |
| Storage.StoredEndpointsFields | server/storage.ts:103-111 | The i-th stored endpoint carries the i-th insert fields, the i-th fresh id and the i-th clock reading. |
| Storage.SeedEndpointsDistinctActive | server/storage.ts:60-101 | The five seed endpoints are active and have pairwise distinct paths. |
| Storage.ActiveAfterCreating | server/storage.ts:103-111 | Storing active endpoints into an empty ledger lists exactly those endpoints as active, in order, each with its own id and clock reading. |
| Storage.ActivePathsDistinct | server/storage.ts:103-111 | Storing active endpoints with distinct paths into an empty ledger lists that many active endpoints, with distinct paths. |
| Storage.SeededActiveEndpoints | server/storage.ts:51-111 | After construction the other tables are empty. The active endpoints are exactly the five seeds, in order, each under its own id and clock reading, with five distinct paths. |
| Routes.StringFieldError | server/routes.ts:25-28 | A required string field fails if and only if it is missing, null or empty. An empty string gets the field's own message. |
| Routes.UserTypeError | server/routes.ts:18-20 | `userType` fails if and only if it is neither "human" nor "agent", always with the custom message. |
| Routes.Messages | server/routes.ts:40 | The collected messages are empty if and only if every field passed, and they start with the first field's message. |
| Routes.MessagesAppend | server/routes.ts:40 | The messages of two consecutive field groups are the first group's followed by the second's. |
| Routes.MessagesOfOne | server/routes.ts:40 | When exactly one field fails, the messages are exactly its message. |
| Routes.MessagesOfTwo | server/routes.ts:40 | When exactly two fields fail, the messages are those two, in field order. |
| Routes.Join | server/routes.ts:40 | The joined details begin with the first message, and a single message is returned unchanged. |
| Routes.JoinAppend | server/routes.ts:40 | Joining one more message adds the separator and that message at the end. |
| Routes.ValidateIntentBody | server/routes.ts:16-22 | A parse-intent body is accepted if and only if `rawIntent` is a non-empty string and `userType` is "human" or "agent". A failure's details are the intent message, the user-type message, or both joined by ", ", according to which fields failed. |
| Routes.ValidatePaymentBody | server/routes.ts:24-30 | A payment body is accepted if and only if intent id, wallet, amount and endpoint are all non-empty strings. |
| Routes.PaymentOneFailure | server/routes.ts:24-30 | With exactly one failing field, the details are exactly that field's message. |
| Routes.PaymentTwoFailures | server/routes.ts:72-78 | With exactly two failing fields, the details are their two messages in field order, joined by ", ". |
| Routes.PaymentFourFailures | server/routes.ts:72-78 | With all four fields failing, the details are the four messages in field order, joined by ", ". |
| Routes.AllFourMessages | server/routes.ts:40 | Four failing fields collect four messages, which join to the four with the separator between them. |
| Routes.ParseIntentRoute | server/routes.ts:33-60 | An invalid body gives 400 and leaves the ledger unchanged. A valid one stores the resolved intent as "parsed", with a null wallet when none or "" was sent, and replies with its id. Every earlier intent is kept, and a fresh id goes last in the insertion order. |
| Routes.ProcessPaymentRoute | server/routes.ts:70-147 | An invalid body gives 400, changes nothing and schedules nothing. A valid one stores a pending USDC payment with no hash or block and "0" confirmations, replies "processing", and schedules the job. The intent id is not checked. Every earlier payment is kept, and a fresh id goes last in the insertion order. |
| Routes.Dispatch | server/routes.ts:105-129 | Each of the seven known paths, and only that path, reaches its own mock API, called with the params or an empty object when none are given. Any other path yields `{success: true, data: "API response"}`. |
| Routes.DispatchCoversCatalog | server/routes.ts:105-129 | A path reaches a mock API if and only if the resolver's catalog lists it. |
| Routes.BlockNumber | server/routes.ts:100 | The block-number string is a non-empty string of decimal digits that reads back as the random draw plus 1,000,000. For a draw below 1,000,000, as `floor(random * 1e6)` always is, it has exactly seven digits. |
| Routes.Confirm | server/routes.ts:94-141 | A known payment is confirmed with hash "0x"+digits, the block number, "12" confirmations and a confirmation time. A known intent becomes "fulfilled", and an unknown one is left alone. A granted access record is written regardless, with the dispatched response and the same hash as proof, and a fresh record id is appended last. Every other payment, intent and record, and every other field of the confirmed payment, is unchanged. |
| Routes.PaymentLifecycle | server/routes.ts:83-140 | A valid payment is first stored pending with no hash. After the deferred step it is confirmed with a non-empty hash, and the new access record is granted and proves that same hash. |
| Routes.PaymentStatus | server/routes.ts:157-169 | An unknown id gives 404, and a known one gives the stored payment. |
| Routes.AccessHistory | server/routes.ts:176-204 | A missing or empty wallet lists every record, and a wallet lists that wallet's records. Each record is joined with the intent and payment its ids name, or with nothing. |
| Routes.SuccessRate | server/routes.ts:224-226 | The rate is the integer nearest to 100·confirmed/total, with halves rounded up. It is 0 for no payments and always lies in 0..100. |
| Routes.SuccessRateExtremes | server/routes.ts:224-226 | All confirmed gives 100 and none confirmed gives 0. 199 of 200 also gives 100. |
| Routes.AnalyticsRoute | server/routes.ts:211-226 | The counts cover all payments, or one wallet's payments when the query is non-empty. Confirmed count is at most the total, and the rate is the rounded percentage. |
| Routes.AnalyticsExtremes | server/routes.ts:215-226 | Over payments that are all confirmed the rate is 100. Over payments none of which is confirmed it is 0. |
| Routes.Challenge | server/routes.ts:250-266 | Exactly the two paths /api/nft-mints and /api/gas-price answer 402, each naming itself. |
| Routes.ChallengeMatchesCatalog | server/routes.ts:250-266 | Each 402 challenge quotes the catalog's price for its path. |
| Explorers.TxUrl | client/src/components/access-history-table.tsx:62-64 | The link is the chain's explorer (or the Base Sepolia one when the chain has none) followed by "/tx/" and the hash, with a missing chain meaning 84532. |
| Explorers.TxUrlFallback | client/src/components/transaction-status.tsx:31-33 | Every link ends in "/tx/"+hash and begins with a known chain's explorer. An unknown or missing chain links as 84532 does. |
| TextFormat.TruncateMiddle | client/src/components/transaction-status.tsx:47-49 | The result is exactly the first `head` and the last `tail` characters, each clamped to the length, around "...". |
| TextFormat.TruncateText | client/src/components/access-history-table.tsx:58-60 | Text of length up to max is unchanged. Longer text is its first max characters plus "...", so the result is at most max+3 long. |
| HistoryTable.FilterHistory | client/src/components/access-history-table.tsx:45-52 | Exactly the items whose endpoint, intent text (when present) or id contains the lower-cased term, as an order-preserving subsequence, each as often as in the history. |
| HistoryTable.EmptySearchKeepsAll | client/src/components/access-history-table.tsx:45-52 | An empty search term keeps every item. |
| HistoryTable.SearchIgnoresCase | client/src/components/access-history-table.tsx:46-50 | Terms equal up to case select the same items. |
| HistoryTable.SearchByLoweredTerm | client/src/components/access-history-table.tsx:46-50 | Searching for the already lower-cased term selects the same items as the term itself. |
| HistoryTable.TotalPages | client/src/components/access-history-table.tsx:54 | The page count is the ceiling of n/10, and 0 exactly when nothing matches. |
| HistoryTable.Page | client/src/components/access-history-table.tsx:55-56 | Page p holds the items from (p-1)·10 up to the smaller of p·10 and n, never more than ten. |
| HistoryTable.PagesUpToPrefix | client/src/components/access-history-table.tsx:54-56 | The first k pages together are the first 10k items. |
| HistoryTable.PagesReassemble | client/src/components/access-history-table.tsx:54-56 | Pages 1..totalPages read in turn reproduce the filtered list exactly. |
| HistoryTable.PageInRangeNonEmpty | client/src/components/access-history-table.tsx:54-56 | A page between 1 and the page count is non-empty and has the expected size. |
| HistoryTable.OnSearch | client/src/components/access-history-table.tsx:79-82 | Editing the search sets the term and resets the page to 1. |
| HistoryTable.OnPrev | client/src/components/access-history-table.tsx:181 | Previous never goes below page 1 and otherwise steps back one page. |
| HistoryTable.OnNext | client/src/components/access-history-table.tsx:193 | Next never passes the last page and otherwise steps forward one page. |
| HistoryTable.ApplyStaysInRange | client/src/components/access-history-table.tsx:171-199 | A single search or page click keeps the page at least 1 and, whenever anything matches, at most totalPages. When nothing matches, the page is 1 and totalPages is 0. |
| HistoryTable.RunStaysInRange | client/src/components/access-history-table.tsx:171-199 | For a fixed history, any sequence of searches and page clicks keeps the page at least 1 and, whenever anything matches, at most totalPages. |
| HistoryTable.View | client/src/components/access-history-table.tsx:103-201 | The table shows the current page. The pager appears if and only if there is more than one page. The pager reads "Showing a to b of n records": n is the number of matching items, a is (page − 1)·10 + 1, and b is a + 9 or n, whichever is smaller. Prev is disabled exactly on page 1 and Next exactly on the last page. An empty page shows a message, which depends on whether a search term is set. |
| HistoryTable.DisabledIffNoOp | client/src/components/access-history-table.tsx:179-193 | With the page in range, a shown pager button is disabled exactly when clicking it would change nothing. |
| HistoryTable.PagerCountsRows | client/src/components/access-history-table.tsx:173-176 | With the page in range, "Showing a to b" counts exactly the rows shown. |
| HistoryTable.Row | client/src/components/access-history-table.tsx:121-162 | A row shows the intent text, or "N/A" when it is missing or empty; text longer than 50 shows its first 50 characters plus "...". The amount is shown, or "0" when missing or empty. The status is Granted or Pending. A proof link appears if and only if the proof hash is non-empty. |
| TransactionStatusView.Progress | client/src/components/transaction-status.tsx:27-29 | Progress is 0 unless step and total steps are both non-zero, and then it is step/total·100. |
| TransactionStatusView.BadgeLabel | client/src/components/transaction-status.tsx:67-75 | The badge text is Success, Failed or Confirming for those phases, and Pending for every other phase. |
| TransactionStatusView.BadgeVariant | client/src/components/transaction-status.tsx:59-64 | The badge style is default for success, destructive for error and secondary otherwise. |
| TransactionStatusView.TruncateTxHash | client/src/components/transaction-status.tsx:47-49 | A hash of length at least 10 becomes exactly its first 10 characters, "...", and its last 8, which is 21 characters. A shorter hash is kept whole before "...", followed by its last 8 characters, or all of it when it is shorter than 8. |
| TransactionStatusView.View | client/src/components/transaction-status.tsx:25-33 | An idle transaction renders nothing. Otherwise there is an explorer link and a short hash if and only if the hash is non-empty, the short hash being the hash's first 10 and last 8 characters around "...", and an error line if and only if the error is non-empty. |
| WalletButton.TruncateAddress | client/src/components/wallet-connect-button.tsx:30-32 | An address of length at least 6 shortens to 13 characters, starting with its first 6. From length 4 on, the result ends with "..." and the last 4 characters. |
| WalletButton.View | client/src/components/wallet-connect-button.tsx:46-58 | The connect button shows if and only if the wallet is disconnected or the address is missing or empty. Otherwise the menu shows the shortened address. |
| NetworkBadge.NetworkOf | client/src/components/network-badge.tsx:15 | A missing or zero chain id is not looked up. Any other id is looked up in the table. |
| NetworkBadge.View | client/src/components/network-badge.tsx:14-31 | The badge reads "Unknown Network" if and only if no network is found. Otherwise it shows the name, with a test id from the lower-cased name whose first space becomes a dash. |
| NetworkBadge.Slug | client/src/components/network-badge.tsx:27 | The slug is the lower-cased name with its first space, and only that one, turned into a dash. |
| NetworkBadge.BaseBadge | client/src/components/network-badge.tsx:8-12 | Chain 8453 is "Base" with test id badge-network-base. |
| NetworkBadge.BaseSepoliaBadge | client/src/components/network-badge.tsx:8-12 | Chain 84532 is "Base Sepolia" with test id badge-network-base-sepolia. |
| NetworkBadge.EthereumBadge | client/src/components/network-badge.tsx:8-12 | Chain 1 is "Ethereum" with test id badge-network-ethereum. |
| JsString.ContainsIffOccurs | server/services/intent-parser.ts:92 | `includes` holds if and only if the pattern occurs at some position. |
| JsString.ReplaceFirstSpaceSpec | client/src/components/network-badge.tsx:27 | `replace(" ", "-")` changes only the first space. A string without spaces is unchanged. |
| JsString.NatToDecimal | server/routes.ts:100 | `String(n)` is a non-empty run of digits that reads back as n. |
| JsString.DecimalDigits | server/routes.ts:100 | A number between 10^k and 10^(k+1) has a numeral of exactly k + 1 digits. |
| JsString.Utf16Length | client/src/components/access-history-table.tsx:59 | JavaScript's `length` lies between the character count and twice it, and equals the character count exactly when every character is in the Basic Multilingual Plane. |

## Left out

- The language-model classifier is not modelled: its prompt, client and `JSON.parse` (server/services/intent-parser.ts:23-66). It is an external service, so it enters only as its outcome, `Option<ParsedIntent>`. The `userType` argument of `parseIntent` only shapes that prompt.
- Timers, `async`/`await`, `Math.random`, `randomUUID` and `new Date()` are not modelled. Ids, clock readings, the random hex digits and the block draw are parameters.
- Routes.Confirm: the deferred step runs as one atomic ledger transition. Other requests arriving during its one-second delay, and interleavings with them, are not modelled.
- The mock API payloads (server/services/mock-apis.ts) are not modelled, because they are canned, random or time-dependent. A response records only which handler ran and with which params.
- `totalSpent` and `avgResponseTime` in analytics are not modelled. They are a floating-point sum with `toFixed(2)` and a constant string.
- Routes.SuccessRate: exact rational arithmetic rounded half up stands in for IEEE-754 division followed by `Math.round`. They can differ: with 57 confirmed of 200, `(57 / 200) * 100` is 28.499999999999996 in doubles, so JavaScript reports 28, while the model gives 29.
- TransactionStatusView.Progress: exact reals stand in for floating-point division. `step` and `totalSteps` are modelled as optional integers, while the schema types them as optional numbers, so fractional steps and a falsy `NaN` are not modelled.
- TextFormat.TruncateText: the length test and the cut at `max` count characters, not UTF-16 code units. The two agree on text within the Basic Multilingual Plane. Text with characters beyond U+FFFF is cut later than JavaScript cuts it: thirty emoji are 60 code units, which JavaScript cuts to 25 emoji plus "...", while the model keeps all thirty. A cut between the two halves of a surrogate pair cannot be expressed at all.
- TextFormat.TruncateMiddle: head and tail count characters, not UTF-16 code units. Its callers pass transaction hashes and wallet addresses, which are ASCII, and there the counts agree.
- HistoryTable.Row: the 50-character cut of the intent text inherits the character counting of TextFormat.TruncateText.
- The HTTP 500 paths (the `catch` blocks) are not modelled, because none of the modelled operations can throw.
- Express plumbing and zod internals are not modelled. Request fields are modelled as missing, null or a string. Fields of other JSON types, non-object bodies, non-object `params` and repeated query parameters (arrays) are not.
- GET /api/endpoints has no member of its own. It returns `Storage.ActiveApiEndpoints` unchanged.
- The plain getters (`getIntent`, `getAllIntents`, `getPayment`, `getAllPayments`, `getAccessRecord`, `getAllAccessRecords`, `getApiEndpoint`, `getAllApiEndpoints`) are modelled as `Table.Get` and `Table.Values` and have no row of their own.
- Database constraints from the schema (unique paths, column defaults) are not modelled, because the in-memory store does not enforce them.
- Full Unicode `toLowerCase` is not modelled. Case folding is ASCII only.
- React rendering is not modelled, nor are icons, toasts, clipboard copying, relative-time formatting (`formatDistanceToNow`) and the loading state of the history table.
- The other client pages and components (dashboard, payment dialog, intent composer, analytics cards, sidebar, App) and the Vite configuration are not modelled. They are views, hooks, timers and build setup outside the core.

=== FILE: explorers.dfy ===
/** Block-explorer links shared by the history table and the transaction
    status card: a fixed table of explorers by chain id, with Base Sepolia
    as the fallback and the default chain. */
module Explorers {
  import opened Wrappers

  /** The chain assumed when none is given. */
  const DefaultChain := 84532

  /** `BLOCK_EXPLORERS[chainId]`. */
  function ExplorerBase(chainId: int): Option<string> {
    if chainId == 8453 then Some("https://basescan.org")
    else if chainId == 84532 then Some("https://sepolia.basescan.org")
    else if chainId == 1 then Some("https://etherscan.io")
    else None
  }

  /** `${BLOCK_EXPLORERS[chainId] || BLOCK_EXPLORERS[84532]}/tx/${txHash}`,
      with `chainId` defaulting to 84532 when not supplied. */
  function TxUrl(chainId: Option<int>, txHash: string): (r: string)
    ensures var chain := chainId.GetOr(DefaultChain);
            var base := if ExplorerBase(chain).Some? then ExplorerBase(chain).value
                        else ExplorerBase(DefaultChain).value;
            r == base + "/tx/" + txHash
  {
    var base := ExplorerBase(chainId.GetOr(DefaultChain)).GetOr(ExplorerBase(DefaultChain).value);
    base + "/tx/" + txHash
  }

  /** Every link ends in "/tx/" and the hash; a chain without an explorer,
      and a missing chain, link exactly as the default chain does. */
  lemma TxUrlFallback(chainId: int, txHash: string)
    ensures var r := TxUrl(Some(chainId), txHash);
            |r| >= |txHash| + 4 && r[|r| - |txHash| - 4..] == "/tx/" + txHash
    ensures ExplorerBase(chainId).None? ==> TxUrl(Some(chainId), txHash) == TxUrl(Some(DefaultChain), txHash)
    ensures TxUrl(None, txHash) == TxUrl(Some(DefaultChain), txHash)
    ensures ExplorerBase(chainId).Some? ==>
              var b := ExplorerBase(chainId).value;
              TxUrl(Some(chainId), txHash)[..|b|] == b
  {
    var r := TxUrl(Some(chainId), txHash);
    var b := ExplorerBase(chainId).GetOr(ExplorerBase(DefaultChain).value);
    assert r == b + ("/tx/" + txHash);
  }
}

=== FILE: history_table.dfy ===
/** The access-history table: case-insensitive search over endpoint,
    intent text and record id; ten rows per page with previous/next
    clamping; and each row's display fields. */
module HistoryTable {
  import opened Wrappers
  import opened Schema
  import JsString
  import Seqs
  import Explorers
  import TextFormat

  const ItemsPerPage: nat := 10

  // ---------------------------------------------------------------------
  // Search

  /** The term, lower-cased, occurs in the endpoint, in the intent's text
      when there is an intent, or in the record id. */
  predicate Matches(item: AccessHistoryItem, term: string) {
    var t := JsString.Lower(term);
    || JsString.Contains(JsString.Lower(item.record.endpoint), t)
    || (item.intent.Some? && JsString.Contains(JsString.Lower(item.intent.value.rawIntent), t))
    || JsString.Contains(JsString.Lower(item.record.id), t)
  }

  /** `history.filter(...)`: the matching items, in their original order,
      each as often as it occurs in the history. */
  function FilterHistory(history: seq<AccessHistoryItem>, term: string): (r: seq<AccessHistoryItem>)
    ensures Seqs.IsSubsequence(r, history)
    ensures forall i :: 0 <= i < |r| ==> r[i] in history && Matches(r[i], term)
    ensures forall i :: 0 <= i < |history| && Matches(history[i], term) ==> history[i] in r
    ensures multiset(r) <= multiset(history)
    ensures forall i :: 0 <= i < |history| && Matches(history[i], term) ==>
              multiset(r)[history[i]] == multiset(history)[history[i]]
  {
    Seqs.FilterKeepsCounts(history, (item: AccessHistoryItem) => Matches(item, term));
    Seqs.Filter(history, (item: AccessHistoryItem) => Matches(item, term))
  }

  /** An empty search keeps every item. */
  lemma EmptySearchKeepsAll(history: seq<AccessHistoryItem>)
    ensures FilterHistory(history, "") == history
  {
    forall i | 0 <= i < |history|
      ensures Matches(history[i], "")
    {
      JsString.ContainsEmpty(JsString.Lower(history[i].record.endpoint));
    }
    Seqs.FilterAll(history, (item: AccessHistoryItem) => Matches(item, ""));
  }

  /** Terms that differ only in letter case select the same items. */
  lemma SearchIgnoresCase(history: seq<AccessHistoryItem>, a: string, b: string)
    requires JsString.Lower(a) == JsString.Lower(b)
    ensures FilterHistory(history, a) == FilterHistory(history, b)
  {
    Seqs.FilterCongruent(history, (item: AccessHistoryItem) => Matches(item, a),
                         (item: AccessHistoryItem) => Matches(item, b));
  }

  /** Searching for the lower-cased term is searching for the term. */
  lemma SearchByLoweredTerm(history: seq<AccessHistoryItem>, term: string)
    ensures FilterHistory(history, JsString.Lower(term)) == FilterHistory(history, term)
  {
    JsString.LowerIdempotent(term);
    SearchIgnoresCase(history, JsString.Lower(term), term);
  }

  // ---------------------------------------------------------------------
  // Pagination

  /** `Math.ceil(n / 10)`. */
  function TotalPages(n: nat): (r: nat)
    ensures n <= r * ItemsPerPage
    ensures r > 0 ==> (r - 1) * ItemsPerPage < n
    ensures r == 0 <==> n == 0
  {
    (n + ItemsPerPage - 1) / ItemsPerPage
  }

  /** `list.slice((page - 1) * 10, (page - 1) * 10 + 10)`. */
  function Page<T>(list: seq<T>, page: int): (r: seq<T>)
    ensures page >= 1 ==>
              var start := (page - 1) * ItemsPerPage;
              && (start >= |list| ==> r == [])
              && (start < |list| ==> r == list[start..Min(start + ItemsPerPage, |list|)])
    ensures |r| <= ItemsPerPage
  {
    var start := (page - 1) * ItemsPerPage;
    JsString.Slice(list, start, start + ItemsPerPage)
  }

  function Min(a: int, b: int): int {
    if a <= b then a else b
  }

  /** Pages 1 to k, one after another. */
  function PagesUpTo<T>(list: seq<T>, k: nat): seq<T> {
    if k == 0 then [] else PagesUpTo(list, k - 1) + Page(list, k)
  }

  /** The first k pages are the first 10k items (or all of them). */
  lemma {:induction false} PagesUpToPrefix<T>(list: seq<T>, k: nat)
    ensures PagesUpTo(list, k) == list[..Min(k * ItemsPerPage, |list|)]
  {
    if k > 0 {
      PagesUpToPrefix(list, k - 1);
      var a := Min((k - 1) * ItemsPerPage, |list|);
      var b := Min(k * ItemsPerPage, |list|);
      assert list[..a] + list[a..b] == list[..b];
    }
  }

  /** Reading every page in turn reproduces the list exactly. */
  lemma PagesReassemble<T>(list: seq<T>)
    ensures PagesUpTo(list, TotalPages(|list|)) == list
  {
    PagesUpToPrefix(list, TotalPages(|list|));
  }

  /** A page within range is never empty. */
  lemma PageInRangeNonEmpty<T>(list: seq<T>, page: int)
    requires 1 <= page <= TotalPages(|list|)
    ensures 0 < |Page(list, page)|
    ensures |Page(list, page)| == Min(page * ItemsPerPage, |list|) - (page - 1) * ItemsPerPage
  {
  }

  // ---------------------------------------------------------------------
  // Interaction

  /** The table's own state: the search box and the current page. */
  datatype TableState = TableState(searchTerm: string, currentPage: int)

  const Initial := TableState("", 1)

  datatype Action = Search(term: string) | PrevPage | NextPage

  /** Editing the search box; the page returns to 1. */
  function OnSearch(st: TableState, term: string): (r: TableState)
    ensures r.searchTerm == term && r.currentPage == 1
  {
    TableState(term, 1)
  }

  /** `setCurrentPage(p => Math.max(1, p - 1))`. */
  function OnPrev(st: TableState): (r: TableState)
    ensures r.searchTerm == st.searchTerm
    ensures r.currentPage >= 1
    ensures st.currentPage > 1 ==> r.currentPage == st.currentPage - 1
    ensures st.currentPage <= 1 ==> r.currentPage == 1
  {
    st.(currentPage := if st.currentPage - 1 < 1 then 1 else st.currentPage - 1)
  }

  /** `setCurrentPage(p => Math.min(totalPages, p + 1))`. */
  function OnNext(st: TableState, totalPages: nat): (r: TableState)
    ensures r.searchTerm == st.searchTerm
    ensures r.currentPage <= totalPages
    ensures st.currentPage < totalPages ==> r.currentPage == st.currentPage + 1
    ensures st.currentPage >= totalPages ==> r.currentPage == totalPages
  {
    st.(currentPage := Min(totalPages, st.currentPage + 1))
  }

  function Filtered(history: seq<AccessHistoryItem>, st: TableState): seq<AccessHistoryItem> {
    FilterHistory(history, st.searchTerm)
  }

  /** One user action. The page buttons exist only while there is more than
      one page. */
  function Apply(history: seq<AccessHistoryItem>, st: TableState, a: Action): TableState {
    var totalPages := TotalPages(|Filtered(history, st)|);
    match a
    case Search(term) => OnSearch(st, term)
    case PrevPage => if totalPages > 1 then OnPrev(st) else st
    case NextPage => if totalPages > 1 then OnNext(st, totalPages) else st
  }

  function Run(history: seq<AccessHistoryItem>, st: TableState, actions: seq<Action>): TableState
    decreases |actions|
  {
    if |actions| == 0 then st else Run(history, Apply(history, st, actions[0]), actions[1..])
  }

  /** The current page is at least 1 and, once anything matches, at most
      the page count. */
  ghost predicate InRange(history: seq<AccessHistoryItem>, st: TableState) {
    var totalPages := TotalPages(|Filtered(history, st)|);
    1 <= st.currentPage && (totalPages > 0 ==> st.currentPage <= totalPages)
  }

  /** While the history stays the same, every sequence of actions from the
      initial state keeps the page in range. */
  lemma {:induction false} RunStaysInRange(history: seq<AccessHistoryItem>, st: TableState, actions: seq<Action>)
    requires InRange(history, st)
    ensures InRange(history, Run(history, st, actions))
    decreases |actions|
  {
    if |actions| > 0 {
      var next := Apply(history, st, actions[0]);
      ApplyStaysInRange(history, st, actions[0]);
      RunStaysInRange(history, next, actions[1..]);
    }
  }

  /** One action keeps the page in range. */
  lemma ApplyStaysInRange(history: seq<AccessHistoryItem>, st: TableState, a: Action)
    requires InRange(history, st)
    ensures InRange(history, Apply(history, st, a))
  {
    if a.Search? {
      assert Apply(history, st, a).currentPage == 1;
    }
  }

  lemma InitialInRange(history: seq<AccessHistoryItem>)
    ensures InRange(history, Initial)
  {
  }

  // ---------------------------------------------------------------------
  // View

  /** The "Showing a to b of n records" line and the pager buttons. */
  datatype Pager = Pager(first: int, last: int, of: nat, prevDisabled: bool, nextDisabled: bool)

  datatype TableView = TableView(rows: seq<AccessHistoryItem>, pager: Option<Pager>, emptyMessage: Option<string>)

  /** What the table shows for a history and state: the current page's
      rows, the pager when there is more than one page, and a message when
      the page is empty. */
  function View(history: seq<AccessHistoryItem>, st: TableState): (r: TableView)
    ensures r.rows == Page(Filtered(history, st), st.currentPage)
    ensures r.pager.Some? <==> TotalPages(|Filtered(history, st)|) > 1
    ensures r.pager.Some? ==>
              var pg := r.pager.value;
              && pg.of == |Filtered(history, st)|
              && pg.first == (st.currentPage - 1) * ItemsPerPage + 1
              && pg.last <= pg.first + ItemsPerPage - 1 && pg.last <= pg.of
              && (pg.last == pg.first + ItemsPerPage - 1 || pg.last == pg.of)
              && (pg.prevDisabled <==> st.currentPage == 1)
              && (pg.nextDisabled <==> st.currentPage == TotalPages(|Filtered(history, st)|))
    ensures r.emptyMessage.Some? <==> |r.rows| == 0
    ensures r.emptyMessage.Some? ==>
              r.emptyMessage.value == (if st.searchTerm != "" then "No matching records found"
                                       else "No access history yet")
  {
    var filtered := Filtered(history, st);
    var totalPages := TotalPages(|filtered|);
    var rows := Page(filtered, st.currentPage);
    var start := (st.currentPage - 1) * ItemsPerPage;
    TableView(
      rows,
      if totalPages > 1
      then Some(Pager(start + 1, Min(start + ItemsPerPage, |filtered|), |filtered|,
                      st.currentPage == 1, st.currentPage == totalPages))
      else None,
      if |rows| == 0
      then Some(if st.searchTerm != "" then "No matching records found" else "No access history yet")
      else None)
  }

  /** With the page in range, the pager counts exactly the rows shown. */
  lemma PagerCountsRows(history: seq<AccessHistoryItem>, st: TableState)
    requires InRange(history, st)
    ensures var v := View(history, st);
            v.pager.Some? ==> v.pager.value.last - v.pager.value.first + 1 == |v.rows| > 0
  {
    var filtered := Filtered(history, st);
    if TotalPages(|filtered|) > 1 {
      PageInRangeNonEmpty(filtered, st.currentPage);
    }
  }

  /** With the page in range, a pager button is disabled exactly when
      clicking it would leave the state as it is. */
  lemma DisabledIffNoOp(history: seq<AccessHistoryItem>, st: TableState)
    requires InRange(history, st)
    ensures var v := View(history, st);
            v.pager.Some? ==>
              && (v.pager.value.prevDisabled <==> Apply(history, st, PrevPage) == st)
              && (v.pager.value.nextDisabled <==> Apply(history, st, NextPage) == st)
  {
  }

  /** One table row as displayed. */
  datatype RowView = RowView(intentText: string, endpoint: string, amount: string, status: string,
                             proofUrl: Option<string>)

  /** `truncateText(item.intent?.rawIntent || "N/A", 50)`, the amount
      `item.payment?.amount || "0"`, "Granted" or "Pending", and a proof
      link only for a non-empty proof hash. */
  function Row(item: AccessHistoryItem, chainId: Option<int>): (r: RowView)
    ensures 0 < |r.intentText| <= 53
    ensures item.intent.Some? && |item.intent.value.rawIntent| <= 50 && item.intent.value.rawIntent != "" ==>
              r.intentText == item.intent.value.rawIntent
    ensures item.intent.Some? && |item.intent.value.rawIntent| > 50 ==>
              r.intentText == item.intent.value.rawIntent[..50] + "..."
    ensures item.intent.None? || item.intent.value.rawIntent == "" ==> r.intentText == "N/A"
    ensures r.endpoint == item.record.endpoint
    ensures r.amount != ""
    ensures item.payment.Some? && item.payment.value.amount != "" ==> r.amount == item.payment.value.amount
    ensures item.payment.None? || item.payment.value.amount == "" ==> r.amount == "0"
    ensures r.status == (if item.record.accessGranted then "Granted" else "Pending")
    ensures r.proofUrl.Some? <==> JsString.Truthy(item.record.proofTxHash)
    ensures r.proofUrl.Some? ==> r.proofUrl.value == Explorers.TxUrl(chainId, item.record.proofTxHash.value)
  {
    var text := JsString.Or(if item.intent.Some? then Some(item.intent.value.rawIntent) else None, Some("N/A"));
    var amount := JsString.Or(if item.payment.Some? then Some(item.payment.value.amount) else None, Some("0"));
    RowView(
      TextFormat.TruncateText(text.value, 50),
      item.record.endpoint,
      amount.value,
      if item.record.accessGranted then "Granted" else "Pending",
      if JsString.Truthy(item.record.proofTxHash)
      then Some(Explorers.TxUrl(chainId, item.record.proofTxHash.value))
      else None)
  }
}

=== FILE: intent_parser.dfy ===
/** Intent resolution: the endpoint catalog, the deterministic keyword
    resolver used when the language-model classifier is unavailable or
    fails, and the price backfill applied to classifier output. The
    classifier itself is an external service and enters the model only as
    its outcome: `Some(descriptor)` or `None` for "not configured / failed". */
module IntentParser {
  import opened Wrappers
  import opened JsString
  import opened Schema
  
  /** One entry of the endpoint catalog: action key, path and USDC price. */
  datatype CatalogEntry = CatalogEntry(key: string, path: string, price: string)

  /** The catalog, in declaration order (the order `Object.keys` yields). */
  const ApiEndpoints: seq<CatalogEntry> := [
    CatalogEntry("swap-tokens", "/api/swap", "0.5"),
    CatalogEntry("nft-mints", "/api/nft-mints", "0.5"),
    CatalogEntry("gas-price", "/api/gas-price", "0.25"),
    CatalogEntry("whale-transactions", "/api/whale-txs", "1.0"),
    CatalogEntry("token-price", "/api/token-price", "0.3"),
    CatalogEntry("arbitrage", "/api/arbitrage", "2.0"),
    CatalogEntry("wallet-balance", "/api/wallet-balance", "0.1")
  ]

  const GeneralEndpoint := "/api/general"
  const DefaultPrice := "0.5"

  /** The catalog price of a path, if the path is catalogued. */
  function CatalogPrice(entries: seq<CatalogEntry>, path: string): Option<string>
    decreases |entries|
  {
    if |entries| == 0 then None
    else if entries[0].path == path then Some(entries[0].price)
    else CatalogPrice(entries[1..], path)
  }

  /** The descriptor agrees with a catalog entry on endpoint and price. */
  predicate FromCatalog(d: ParsedIntent) {
    d.endpoint.Some? && d.estimatedPrice.Some?
    && CatalogPrice(ApiEndpoints, d.endpoint.value) == d.estimatedPrice
  }

  const SwapIntent := ParsedIntent(
    "Token Swap", Some("/api/swap"),
    Some(map["fromToken" := Text("ETH"), "toToken" := Text("USDC"),
             "amount" := Text("2"), "slippage" := Text("0.5")]),
    Some("0.5"), Some(0.85))

  const NftIntent := ParsedIntent(
    "Fetch NFT Mints", Some("/api/nft-mints"),
    Some(map["timeframe" := Text("1h"), "network" := Text("base")]),
    Some("0.5"), Some(0.9))

  const GasIntent := ParsedIntent(
    "Get Gas Prices", Some("/api/gas-price"),
    Some(map["network" := Text("base")]),
    Some("0.25"), Some(0.95))

  const WhaleIntent := ParsedIntent(
    "Monitor Whale Transactions", Some("/api/whale-txs"),
    Some(map["threshold" := Text("100 ETH"), "network" := Text("base")]),
    Some("1.0"), Some(0.88))

  const ArbitrageIntent := ParsedIntent(
    "DEX Arbitrage Scanner", Some("/api/arbitrage"),
    Some(map["minProfit" := Text("100"), "dexes" := TextList(["uniswap", "base-dex"])]),
    Some("2.0"), Some(0.82))

  const WalletIntent := ParsedIntent(
    "Check Wallet Balance", Some("/api/wallet-balance"),
    Some(map["tokens" := TextList(["ETH", "USDC"])]),
    Some("0.1"), Some(0.92))

  const OracleIntent := ParsedIntent(
    "Token Price Oracle", Some("/api/token-price"),
    Some(map["pair" := Text("ETH/USD")]),
    Some("0.3"), Some(0.87))

  const GeneralIntent := ParsedIntent(
    "General API Request", Some(GeneralEndpoint), Some(map[]), Some(DefaultPrice), Some(0.6))

  /** The keyword resolver, rule by rule in the source's order, on the
      lower-cased text. */
  function MockParseIntent(rawIntent: string): (r: ParsedIntent)
    ensures r.endpoint.Some? && r.endpoint.value != ""
    ensures Truthy(r.estimatedPrice)
    ensures r == GeneralIntent || FromCatalog(r)
  {
    var t := Lower(rawIntent);
    if Contains(t, "swap") || Contains(t, "exchange") then SwapIntent
    else if Contains(t, "nft") && Contains(t, "mint") then NftIntent
    else if Contains(t, "gas") then GasIntent
    else if Contains(t, "whale") || Contains(t, "large transaction") then WhaleIntent
    else if Contains(t, "arbitrage") then ArbitrageIntent
    else if Contains(t, "balance") || Contains(t, "wallet") then WalletIntent
    else if Contains(t, "price") && Contains(t, "oracle") then OracleIntent
    else GeneralIntent
  }

  // ---------------------------------------------------------------------
  // Reference definition: the same resolver as a table of rules scanned in
  // order, first match wins.

  datatype Trigger = AnyOf(words: seq<string>) | AllOf(words: seq<string>)

  datatype Rule = Rule(trigger: Trigger, result: ParsedIntent)

  const Rules: seq<Rule> := [
    Rule(AnyOf(["swap", "exchange"]), SwapIntent),
    Rule(AllOf(["nft", "mint"]), NftIntent),
    Rule(AnyOf(["gas"]), GasIntent),
    Rule(AnyOf(["whale", "large transaction"]), WhaleIntent),
    Rule(AnyOf(["arbitrage"]), ArbitrageIntent),
    Rule(AnyOf(["balance", "wallet"]), WalletIntent),
    Rule(AllOf(["price", "oracle"]), OracleIntent)
  ]

  predicate AnyWord(words: seq<string>, text: string)
    decreases |words|
  {
    |words| > 0 && (Contains(text, words[0]) || AnyWord(words[1..], text))
  }

  predicate AllWords(words: seq<string>, text: string)
    decreases |words|
  {
    |words| == 0 || (Contains(text, words[0]) && AllWords(words[1..], text))
  }

  predicate Fires(trigger: Trigger, text: string) {
    match trigger
    case AnyOf(ws) => AnyWord(ws, text)
    case AllOf(ws) => AllWords(ws, text)
  }

  /** Rule i fires on text and no earlier rule does. */
  ghost predicate FirstFiring(text: string, i: int) {
    0 <= i < |Rules| && Fires(Rules[i].trigger, text)
    && forall j :: 0 <= j < i ==> !Fires(Rules[j].trigger, text)
  }

  /** Scans the rule table from position i. */
  function ResolveFrom(text: string, i: nat): ParsedIntent
    requires i <= |Rules|
    decreases |Rules| - i
  {
    if i == |Rules| then GeneralIntent
    else if Fires(Rules[i].trigger, text) then Rules[i].result
    else ResolveFrom(text, i + 1)
  }

  /** The scan returns the first rule at or after i that fires, or the
      general descriptor when none does. */
  lemma {:induction false} ResolveFromFirstMatch(text: string, i: nat)
    requires i <= |Rules|
    ensures (forall j :: i <= j < |Rules| ==> !Fires(Rules[j].trigger, text))
            ==> ResolveFrom(text, i) == GeneralIntent
    ensures forall j :: i <= j < |Rules| && Fires(Rules[j].trigger, text)
                        && (forall k :: i <= k < j ==> !Fires(Rules[k].trigger, text))
                        ==> ResolveFrom(text, i) == Rules[j].result
    decreases |Rules| - i
  {
    if i < |Rules| {
      ResolveFromFirstMatch(text, i + 1);
    }
  }

  /** The hand-written if-chain and the rule table agree on every input. */
  lemma MockParseIntentIsRuleScan(rawIntent: string)
    ensures MockParseIntent(rawIntent) == ResolveFrom(Lower(rawIntent), 0)
  {
    var t := Lower(rawIntent);
    assert Rules[0].trigger.words[1..] == ["exchange"];
    assert Rules[1].trigger.words[1..] == ["mint"];
    assert Rules[3].trigger.words[1..] == ["large transaction"];
    assert Rules[5].trigger.words[1..] == ["wallet"];
    assert Rules[6].trigger.words[1..] == ["oracle"];
  }

  /** First match wins: the resolver yields the result of the first rule
      whose keywords occur in the lower-cased text. */
  lemma FirstMatchWins(rawIntent: string, i: int)
    requires FirstFiring(Lower(rawIntent), i)
    ensures MockParseIntent(rawIntent) == Rules[i].result
  {
    MockParseIntentIsRuleScan(rawIntent);
    ResolveFromFirstMatch(Lower(rawIntent), 0);
  }

  /** With no rule firing, the resolver yields the general descriptor. */
  lemma NoMatchIsGeneral(rawIntent: string)
    requires forall j :: 0 <= j < |Rules| ==> !Fires(Rules[j].trigger, Lower(rawIntent))
    ensures MockParseIntent(rawIntent) == GeneralIntent
    ensures MockParseIntent(rawIntent).action == "General API Request"
    ensures MockParseIntent(rawIntent).params == Some(map[])
    ensures MockParseIntent(rawIntent).confidence == Some(0.6)
  {
    MockParseIntentIsRuleScan(rawIntent);
    ResolveFromFirstMatch(Lower(rawIntent), 0);
  }

  /** Classification depends on the text only up to ASCII case. */
  lemma CaseInsensitive(a: string, b: string)
    requires Lower(a) == Lower(b)
    ensures MockParseIntent(a) == MockParseIntent(b)
  {
  }

  /** "swap" or "exchange" anywhere selects the swap endpoint, whatever
      other keywords occur. */
  lemma SwapWins(rawIntent: string)
    requires Contains(Lower(rawIntent), "swap") || Contains(Lower(rawIntent), "exchange")
    ensures MockParseIntent(rawIntent).endpoint == Some("/api/swap")
    ensures MockParseIntent(rawIntent).estimatedPrice == Some("0.5")
    ensures MockParseIntent(rawIntent).confidence == Some(0.85)
  {
  }

  /** The NFT rule is chosen exactly when both "nft" and "mint" occur and
      no swap keyword does; "nft" alone falls through. */
  lemma NftNeedsBothWords(rawIntent: string)
    ensures MockParseIntent(rawIntent).endpoint == Some("/api/nft-mints")
            <==> var t := Lower(rawIntent);
                 !Contains(t, "swap") && !Contains(t, "exchange")
                 && Contains(t, "nft") && Contains(t, "mint")
  {
  }

  /** "gas" selects the gas-price endpoint once the swap and NFT rules
      have not fired. */
  lemma GasRule(rawIntent: string)
    requires var t := Lower(rawIntent);
             !Contains(t, "swap") && !Contains(t, "exchange")
             && !(Contains(t, "nft") && Contains(t, "mint")) && Contains(t, "gas")
    ensures MockParseIntent(rawIntent).action == "Get Gas Prices"
    ensures MockParseIntent(rawIntent).endpoint == Some("/api/gas-price")
    ensures MockParseIntent(rawIntent).estimatedPrice == Some("0.25")
  {
    assert FirstFiring(Lower(rawIntent), 2);
    FirstMatchWins(rawIntent, 2);
  }

  /** The wallet rule precedes the price-oracle rule: text mentioning
      "wallet", "price" and "oracle" (and no earlier keyword) is a wallet
      balance request. */
  lemma WalletBeforeOracle(rawIntent: string)
    requires var t := Lower(rawIntent);
             !Contains(t, "swap") && !Contains(t, "exchange") && !Contains(t, "nft")
             && !Contains(t, "gas") && !Contains(t, "whale")
             && !Contains(t, "large transaction") && !Contains(t, "arbitrage")
             && Contains(t, "wallet") && Contains(t, "price") && Contains(t, "oracle")
    ensures MockParseIntent(rawIntent) == WalletIntent
    ensures MockParseIntent(rawIntent).action == "Check Wallet Balance"
  {
  }

  // The two worked examples below reason about which letters a sentence
  // lacks rather than unfolding every keyword test on the literal text.

  /** A text without 'w', 'x' and 'f' contains none of the keywords tested
      before "gas". */
  lemma LacksSwapAndNftKeywords(t: string)
    requires 'w' !in t && 'x' !in t && 'f' !in t
    ensures !Contains(t, "swap") && !Contains(t, "exchange") && !Contains(t, "nft")
  {
    NotContainsMissingChar(t, "swap", 1);
    NotContainsMissingChar(t, "exchange", 1);
    NotContainsMissingChar(t, "nft", 1);
  }

  /** "Get current gas prices on Base", in any capitalisation, resolves to
      the gas-price endpoint. */
  lemma GasScenario(rawIntent: string)
    requires Lower(rawIntent) == "get current gas prices on base"
    ensures MockParseIntent(rawIntent).action == "Get Gas Prices"
    ensures MockParseIntent(rawIntent).endpoint == Some("/api/gas-price")
    ensures MockParseIntent(rawIntent).estimatedPrice == Some("0.25")
  {
    var t := Lower(rawIntent);
    assert t[12] == 'g' && t[13] == 'a' && t[14] == 's';
    assert t[12..15] == "gas" by {
      assert |t[12..15]| == 3 == |"gas"|;
      assert forall k :: 0 <= k < 3 ==> t[12..15][k] == t[12 + k];
    }
    ContainsAt(t, "gas", 12);
    LacksSwapAndNftKeywords(t);
    GasRule(rawIntent);
  }

  /** A text without 'w', 'x', 'f', 'g', 'l', 'r', 'b' and 'p' contains
      none of the resolver's keywords. */
  lemma LacksAllKeywords(t: string)
    requires 'w' !in t && 'x' !in t && 'f' !in t && 'g' !in t
    requires 'l' !in t && 'r' !in t && 'b' !in t && 'p' !in t
    ensures !Contains(t, "swap") && !Contains(t, "exchange") && !Contains(t, "nft")
            && !Contains(t, "gas") && !Contains(t, "whale")
            && !Contains(t, "large transaction") && !Contains(t, "arbitrage")
            && !Contains(t, "balance") && !Contains(t, "wallet") && !Contains(t, "price")
  {
    LacksSwapAndNftKeywords(t);
    NotContainsMissingChar(t, "gas", 0);
    NotContainsMissingChar(t, "whale", 0);
    NotContainsMissingChar(t, "large transaction", 0);
    NotContainsMissingChar(t, "arbitrage", 1);
    NotContainsMissingChar(t, "balance", 0);
    NotContainsMissingChar(t, "wallet", 0);
    NotContainsMissingChar(t, "price", 0);
  }

  /** "asdkjasdkj nonsense", in any capitalisation, resolves to the general
      descriptor. */
  lemma NonsenseScenario(rawIntent: string)
    requires Lower(rawIntent) == "asdkjasdkj nonsense"
    ensures MockParseIntent(rawIntent) == GeneralIntent
  {
    LacksAllKeywords(Lower(rawIntent));
    NoKeywordIsGeneral(rawIntent);
  }

  /** The general descriptor is chosen when none of the seven keyword
      tests succeeds on the lower-cased text; "nft" without "mint", or
      "price" without "oracle", still falls through to it. */
  lemma NoKeywordIsGeneral(rawIntent: string)
    requires var t := Lower(rawIntent);
             !Contains(t, "swap") && !Contains(t, "exchange")
             && !(Contains(t, "nft") && Contains(t, "mint"))
             && !Contains(t, "gas") && !Contains(t, "whale")
             && !Contains(t, "large transaction") && !Contains(t, "arbitrage")
             && !Contains(t, "balance") && !Contains(t, "wallet")
             && !(Contains(t, "price") && Contains(t, "oracle"))
    ensures MockParseIntent(rawIntent) == GeneralIntent
  {
  }

  // ---------------------------------------------------------------------
  // Price backfill for classifier output.

  /** Catalog key i, with dashes read as spaces, occurs in the lower-cased action. */
  predicate KeyMatches(action: string, i: int)
    requires 0 <= i < |ApiEndpoints|
  {
    Contains(Lower(action), DashesToSpaces(ApiEndpoints[i].key))
  }

  /** No catalog key before position i occurs in the action. */
  ghost predicate NoKeyBefore(action: string, i: int)
    requires 0 <= i <= |ApiEndpoints|
  {
    forall j :: 0 <= j < i ==> !KeyMatches(action, j)
  }

  /** Scans the catalog keys from position i (`Object.keys(...).find`). */
  function PriceFrom(action: string, i: nat): (price: string)
    requires i <= |ApiEndpoints|
    ensures NoKeyBefore(action, i) ==>
              (exists k :: i <= k < |ApiEndpoints| && KeyMatches(action, k)
                           && NoKeyBefore(action, k) && price == ApiEndpoints[k].price)
              || (NoKeyBefore(action, |ApiEndpoints|) && price == DefaultPrice)
    decreases |ApiEndpoints| - i
  {
    if i == |ApiEndpoints| then DefaultPrice
    else if KeyMatches(action, i) then ApiEndpoints[i].price
    else PriceFrom(action, i + 1)
  }

  /** The price of the first catalog key mentioned by the action, else the default. */
  function PriceForAction(action: string): (price: string)
    ensures (exists i :: 0 <= i < |ApiEndpoints| && KeyMatches(action, i)
                         && NoKeyBefore(action, i) && price == ApiEndpoints[i].price)
            || (NoKeyBefore(action, |ApiEndpoints|) && price == DefaultPrice)
  {
    PriceFrom(action, 0)
  }

  /** Backfilled prices are never empty. */
  lemma PriceForActionNonEmpty(action: string)
    ensures PriceForAction(action) != ""
  {
  }

  /** Fills in a missing (absent or empty) price; never overwrites one. */
  function BackfillPrice(p: ParsedIntent): (r: ParsedIntent)
    ensures Truthy(p.estimatedPrice) ==> r == p
    ensures !Truthy(p.estimatedPrice) ==> r == p.(estimatedPrice := Some(PriceForAction(p.action)))
    ensures Truthy(r.estimatedPrice)
  {
    if Truthy(p.estimatedPrice) then p
    else p.(estimatedPrice := Some(PriceForAction(p.action)))
  }

  /** `parseIntent`: classifier output with its price backfilled, or the
      keyword resolver when the classifier is unavailable or failed. */
  function ParseIntent(classifier: Option<ParsedIntent>, rawIntent: string): (r: ParsedIntent)
    ensures classifier.None? ==> r == MockParseIntent(rawIntent)
    ensures classifier.Some? ==> r.action == classifier.value.action
                                 && r.endpoint == classifier.value.endpoint
                                 && r.params == classifier.value.params
                                 && r.confidence == classifier.value.confidence
    ensures classifier.Some? && Truthy(classifier.value.estimatedPrice) ==> r == classifier.value
    ensures classifier.Some? && !Truthy(classifier.value.estimatedPrice) ==>
              r.estimatedPrice == Some(PriceForAction(classifier.value.action))
    ensures Truthy(r.estimatedPrice)
  {
    match classifier
    case None => MockParseIntent(rawIntent)
    case Some(p) => BackfillPrice(p)
  }
}

=== FILE: js_string.dfy ===
/** The few pieces of JavaScript string and array semantics the application
    relies on: ASCII `toLowerCase`, `includes`, `slice` with negative and
    out-of-range indices, `replace`, truthiness of optional strings and
    `String(n)` for naturals. Positions and lengths count characters
    (Unicode scalar values); JavaScript counts UTF-16 code units, and the
    two agree exactly on text within the Basic Multilingual Plane. */
module JsString {
  import opened Wrappers

  /** `toLowerCase` restricted to ASCII: only 'A'..'Z' change. */
  function LowerChar(c: char): char {
    if 'A' <= c <= 'Z' then (c as int + 32) as char else c
  }

  function Lower(s: string): (r: string)
    ensures |r| == |s|
    ensures forall i :: 0 <= i < |s| ==> r[i] == LowerChar(s[i])
  {
    seq(|s|, i requires 0 <= i < |s| => LowerChar(s[i]))
  }

  lemma LowerIdempotent(s: string)
    ensures Lower(Lower(s)) == Lower(s)
  {
  }

  /** Every character lies in the Basic Multilingual Plane. */
  predicate InBmp(s: string) {
    forall i :: 0 <= i < |s| ==> (s[i] as int) < 0x1_0000
  }

  /** JavaScript's `s.length`: one UTF-16 code unit per character, two for
      a character beyond U+FFFF. */
  function Utf16Length(s: string): (n: nat)
    ensures |s| <= n <= 2 * |s|
    ensures n == |s| <==> InBmp(s)
    decreases |s|
  {
    if |s| == 0 then 0
    else
      assert forall i :: 1 <= i < |s| ==> s[1..][i - 1] == s[i];
      (if (s[0] as int) < 0x1_0000 then 1 else 2) + Utf16Length(s[1..])
  }

  predicate StartsWith(s: string, p: string) {
    |p| <= |s| && s[..|p|] == p
  }

  /** `s.includes(p)`: p occurs somewhere in s (the empty string occurs everywhere). */
  predicate Contains(s: string, p: string)
    decreases |s|
  {
    StartsWith(s, p) || (|s| > 0 && Contains(s[1..], p))
  }

  /** Reference definition of an occurrence of p in s at position i. */
  ghost predicate OccursAt(s: string, p: string, i: int) {
    0 <= i && i + |p| <= |s| && s[i..i + |p|] == p
  }

  /** The recursive scan agrees with the positional definition of a substring. */
  lemma {:induction false} ContainsIffOccurs(s: string, p: string)
    ensures Contains(s, p) <==> exists i :: OccursAt(s, p, i)
    decreases |s|
  {
    if StartsWith(s, p) {
      assert OccursAt(s, p, 0);
    } else if |s| > 0 {
      ContainsIffOccurs(s[1..], p);
      if Contains(s[1..], p) {
        var i :| OccursAt(s[1..], p, i);
        assert s[i + 1..i + 1 + |p|] == s[1..][i..i + |p|];
        assert OccursAt(s, p, i + 1);
      }
      assert !OccursAt(s, p, 0) by {
        assert |p| <= |s| ==> s[0..|p|] == s[..|p|];
      }
      forall i | OccursAt(s, p, i) && i > 0
        ensures OccursAt(s[1..], p, i - 1)
      {
        assert s[1..][i - 1..i - 1 + |p|] == s[i..i + |p|];
      }
    }
  }

  /** Every string includes the empty string. */
  lemma ContainsEmpty(s: string)
    ensures Contains(s, "")
  {
    assert StartsWith(s, "");
  }

  /** A string that lacks one of p's characters cannot include p. */
  lemma NotContainsMissingChar(s: string, p: string, k: nat)
    requires k < |p| && p[k] !in s
    ensures !Contains(s, p)
  {
    ContainsIffOccurs(s, p);
    forall i | 0 <= i && i + |p| <= |s|
      ensures !OccursAt(s, p, i)
    {
      assert s[i..i + |p|][k] == s[i + k];
    }
  }

  /** p occurs at a known position of s. */
  lemma ContainsAt(s: string, p: string, i: nat)
    requires i + |p| <= |s| && s[i..i + |p|] == p
    ensures Contains(s, p)
  {
    ContainsIffOccurs(s, p);
    assert OccursAt(s, p, i);
  }

  /** The index `slice` actually uses: negative indices count from the end,
      and everything is clamped to 0..len. */
  function ClampIndex(i: int, len: nat): (r: nat)
    ensures r <= len
    ensures 0 <= i <= len ==> r == i
    ensures i > len ==> r == len
    ensures i < 0 ==> r == if len + i < 0 then 0 else len + i
  {
    if i < 0 then (if len + i < 0 then 0 else len + i)
    else if i > len then len
    else i
  }

  /** `s.slice(start, end)` for strings and arrays alike. */
  function Slice<T>(s: seq<T>, start: int, end: int): (r: seq<T>)
    ensures |r| <= |s|
  {
    var a := ClampIndex(start, |s|);
    var b := ClampIndex(end, |s|);
    if a < b then s[a..b] else []
  }

  /** `s.slice(start)`. */
  function SliceFrom<T>(s: seq<T>, start: int): (r: seq<T>)
    ensures |r| <= |s|
  {
    Slice(s, start, |s|)
  }

  /** `s.slice(0, n)` keeps the first min(n, |s|) elements. */
  lemma SlicePrefix<T>(s: seq<T>, n: nat)
    ensures Slice(s, 0, n) == if n <= |s| then s[..n] else s
  {
  }

  /** `s.slice(-n)` keeps the last min(n, |s|) elements. */
  lemma SliceSuffix<T>(s: seq<T>, n: int)
    requires n > 0
    ensures SliceFrom(s, -n) == if n <= |s| then s[|s| - n..] else s
  {
  }

  /** `s.replace(/-/g, " ")`: every dash becomes a space. */
  function DashesToSpaces(s: string): (r: string)
    ensures |r| == |s|
    ensures forall i :: 0 <= i < |s| ==> r[i] == if s[i] == '-' then ' ' else s[i]
  {
    seq(|s|, i requires 0 <= i < |s| => if s[i] == '-' then ' ' else s[i])
  }

  /** `s.replace(" ", "-")` with a string pattern. */
  function ReplaceFirstSpace(s: string): (r: string)
    ensures |r| == |s|
    decreases |s|
  {
    if |s| == 0 then s
    else if s[0] == ' ' then "-" + s[1..]
    else [s[0]] + ReplaceFirstSpace(s[1..])
  }

  /** Only the first space changes; a string without spaces is kept. */
  lemma {:induction false} ReplaceFirstSpaceSpec(s: string, k: nat)
    requires k <= |s|
    requires ' ' !in s[..k]
    requires k < |s| ==> s[k] == ' '
    ensures k == |s| ==> ReplaceFirstSpace(s) == s
    ensures k < |s| ==> ReplaceFirstSpace(s) == s[..k] + "-" + s[k + 1..]
    decreases |s|
  {
    if |s| > 0 && k > 0 {
      assert s[0] == s[..k][0];
      assert s[1..][..k - 1] == s[1..k];
      assert s[1..][..k - 1] == s[..k][1..];
      ReplaceFirstSpaceSpec(s[1..], k - 1);
      if k < |s| {
        assert [s[0]] + s[1..][..k - 1] == s[..k];
        assert s[1..][k..] == s[k + 1..];
      } else {
        assert [s[0]] + s[1..] == s;
      }
    }
  }

  /** JavaScript truthiness of an optional string: `undefined`, `null` and
      "" are falsy. */
  predicate Truthy(o: Option<string>) {
    o.Some? && o.value != ""
  }

  /** `a || b` on optional strings. */
  function Or(a: Option<string>, b: Option<string>): (r: Option<string>)
    ensures Truthy(a) ==> r == a
    ensures !Truthy(a) ==> r == b
  {
    if Truthy(a) then a else b
  }

  function DigitChar(d: nat): (c: char)
    requires d < 10
  {
    "0123456789"[d]
  }

  /** Reference reading of a decimal numeral (digits only). */
  ghost function DecimalValue(s: string): int
    decreases |s|
  {
    if |s| == 0 then 0
    else DecimalValue(s[..|s| - 1]) * 10 + ((s[|s| - 1] as int) - ('0' as int))
  }

  /** `String(n)` for a natural number: its decimal numeral, which reads
      back as n and is never empty. */
  function NatToDecimal(n: nat): (r: string)
    ensures |r| > 0
    ensures forall i :: 0 <= i < |r| ==> '0' <= r[i] <= '9'
    ensures DecimalValue(r) == n
    decreases n
  {
    if n < 10 then [DigitChar(n)]
    else
      var prefix := NatToDecimal(n / 10);
      var r := prefix + [DigitChar(n % 10)];
      assert r[..|r| - 1] == prefix;
      r
  }

  /** 10 to the k-th power. */
  function Pow10(k: nat): (p: nat)
    ensures p >= 1
  {
    if k == 0 then 1 else 10 * Pow10(k - 1)
  }

  /** A number with k + 1 decimal digits, one between 10^k and 10^(k+1),
      has a numeral of exactly k + 1 characters. */
  lemma {:induction false} DecimalDigits(n: nat, k: nat)
    requires Pow10(k) <= n < 10 * Pow10(k)
    ensures |NatToDecimal(n)| == k + 1
    decreases k
  {
    if k > 0 {
      assert n >= 10;
      var q := n / 10;
      assert Pow10(k - 1) <= q < 10 * Pow10(k - 1) by {
        assert 10 * Pow10(k - 1) <= n < 10 * (10 * Pow10(k - 1));
      }
      DecimalDigits(q, k - 1);
    }
  }
}

=== FILE: network_badge.dfy ===
/** The network badge: the name of a known chain, or "Unknown Network",
    with a test id derived from the name. */
module NetworkBadge {
  import opened Wrappers
  import JsString

  datatype Network = Network(name: string, color: string)

  /** `NETWORKS[chainId]`. */
  function Lookup(chainId: int): Option<Network> {
    if chainId == 8453 then Some(Network("Base", "rgb(0, 82, 255)"))
    else if chainId == 84532 then Some(Network("Base Sepolia", "rgb(0, 82, 255)"))
    else if chainId == 1 then Some(Network("Ethereum", "rgb(99, 102, 241)"))
    else None
  }

  datatype BadgeView = BadgeView(name: string, testId: string)

  /** `chainId ? NETWORKS[chainId] : null`: a missing or zero chain id is
      not looked up. */
  function NetworkOf(chainId: Option<int>): (r: Option<Network>)
    ensures chainId.None? || chainId.value == 0 ==> r.None?
    ensures chainId.Some? && chainId.value != 0 ==> r == Lookup(chainId.value)
  {
    if chainId.Some? && chainId.value != 0 then Lookup(chainId.value) else None
  }

  /** The badge for a chain id: the network's name and the slug of its
      lower-cased name with the first space turned into a dash. */
  function View(chainId: Option<int>): (r: BadgeView)
    ensures NetworkOf(chainId).None? <==> r == BadgeView("Unknown Network", "badge-network-unknown")
    ensures NetworkOf(chainId).Some? ==>
              var name := NetworkOf(chainId).value.name;
              r == BadgeView(name, "badge-network-" + JsString.ReplaceFirstSpace(JsString.Lower(name)))
  {
    match NetworkOf(chainId)
    case None => BadgeView("Unknown Network", "badge-network-unknown")
    case Some(n) => BadgeView(n.name, "badge-network-" + JsString.ReplaceFirstSpace(JsString.Lower(n.name)))
  }

  /** The slug of a name whose lower-cased form is known. */
  lemma Slug(name: string, lowered: string, k: nat)
    requires |name| == |lowered| && forall i :: 0 <= i < |name| ==> JsString.LowerChar(name[i]) == lowered[i]
    requires k <= |lowered| && ' ' !in lowered[..k] && (k < |lowered| ==> lowered[k] == ' ')
    ensures k == |lowered| ==> JsString.ReplaceFirstSpace(JsString.Lower(name)) == lowered
    ensures k < |lowered| ==>
              JsString.ReplaceFirstSpace(JsString.Lower(name)) == lowered[..k] + "-" + lowered[k + 1..]
  {
    assert JsString.Lower(name) == lowered;
    JsString.ReplaceFirstSpaceSpec(lowered, k);
  }

  /** Chain 8453 is Base. */
  lemma BaseBadge()
    ensures View(Some(8453)) == BadgeView("Base", "badge-network-base")
  {
    Slug("Base", "base", 4);
  }

  /** Chain 84532 is Base Sepolia; only its space becomes a dash. */
  lemma BaseSepoliaBadge()
    ensures View(Some(84532)) == BadgeView("Base Sepolia", "badge-network-base-sepolia")
  {
    assert JsString.ReplaceFirstSpace(JsString.Lower("Base Sepolia")) == "base-sepolia" by {
      Slug("Base Sepolia", "base sepolia", 4);
      assert "base sepolia"[..4] + "-" + "base sepolia"[5..] == "base-sepolia";
    }
    assert "badge-network-" + "base-sepolia" == "badge-network-base-sepolia";
  }

  /** Chain 1 is Ethereum. */
  lemma EthereumBadge()
    ensures View(Some(1)) == BadgeView("Ethereum", "badge-network-ethereum")
  {
    Slug("Ethereum", "ethereum", 8);
  }
}

=== FILE: routes.dfy ===
/** The HTTP routes of the server as ledger transformers: request
    validation, intent parsing, the payment flow with its deferred
    confirmation step, mock-API dispatch, the read models (payment status,
    access history, analytics) and the 402 challenge table. Randomness, the
    clock and fresh ids are parameters; the mock payloads are opaque. */
module Routes {
  import opened Wrappers
  import opened Schema
  import JsString
  import IntentParser
  import Storage
  import Seqs

  // ---------------------------------------------------------------------
  // Request validation

  /** A string-typed member of a JSON request body, as the validator sees
      it: missing, `null`, or a string. */
  datatype Field = Absent | Null | Str(s: string)

  /** The message a required non-empty string field produces, if any. */
  function StringFieldError(f: Field, emptyMessage: string): (r: Option<string>)
    ensures r.None? <==> f.Str? && f.s != ""
    ensures f == Str("") ==> r == Some(emptyMessage)
  {
    match f
    case Absent => Some("Required")
    case Null => Some("Expected string, received null")
    case Str(s) => if s == "" then Some(emptyMessage) else None
  }

  const UserTypeMessage := "userType must be 'human' or 'agent'"

  /** The `userType` enum: every failure carries the custom message. */
  function UserTypeError(f: Field): (r: Option<string>)
    ensures r.None? <==> f == Str("human") || f == Str("agent")
    ensures r.Some? ==> r.value == UserTypeMessage
  {
    if f == Str("human") || f == Str("agent") then None else Some(UserTypeMessage)
  }

  /** The messages present, in field order. */
  function Messages(errs: seq<Option<string>>): (r: seq<string>)
    ensures |r| == 0 <==> forall i :: 0 <= i < |errs| ==> errs[i].None?
    ensures |errs| > 0 && errs[0].Some? ==> |r| > 0 && r[0] == errs[0].value
    decreases |errs|
  {
    if |errs| == 0 then []
    else
      match errs[0]
      case Some(m) => [m] + Messages(errs[1..])
      case None =>
        assert forall i :: 1 <= i < |errs| ==> errs[i] == errs[1..][i - 1];
        Messages(errs[1..])
  }

  /** `messages.join(sep)`. */
  function Join(parts: seq<string>, sep: string): (r: string)
    ensures |parts| > 0 ==> |r| >= |parts[0]| && r[..|parts[0]|] == parts[0]
    ensures |parts| == 1 ==> r == parts[0]
    decreases |parts|
  {
    if |parts| == 0 then ""
    else if |parts| == 1 then parts[0]
    else parts[0] + sep + Join(parts[1..], sep)
  }

  /** Collecting messages distributes over concatenation: the messages of
      consecutive field groups are the concatenation of each group's. */
  lemma {:induction false} MessagesAppend(a: seq<Option<string>>, b: seq<Option<string>>)
    ensures Messages(a + b) == Messages(a) + Messages(b)
    decreases |a|
  {
    if |a| == 0 {
      assert a + b == b;
    } else {
      var ab := a + b;
      assert ab[0] == a[0] && ab[1..] == a[1..] + b;
      MessagesAppend(a[1..], b);
      var head := if a[0].Some? then [a[0].value] else [];
      assert Messages(ab) == head + (Messages(a[1..]) + Messages(b));
      assert Messages(a) == head + Messages(a[1..]);
      assert head + (Messages(a[1..]) + Messages(b)) == (head + Messages(a[1..])) + Messages(b);
    }
  }

  /** Exactly one failing field gives exactly its message. */
  lemma MessagesOfOne(errs: seq<Option<string>>, i: nat)
    requires i < |errs| && errs[i].Some?
    requires forall k :: 0 <= k < |errs| && k != i ==> errs[k].None?
    ensures Messages(errs) == [errs[i].value]
  {
    var pre, post := errs[..i], errs[i + 1..];
    assert errs == pre + [errs[i]] + post;
    assert forall k :: 0 <= k < |pre| ==> pre[k] == errs[k];
    assert forall k :: 0 <= k < |post| ==> post[k] == errs[i + 1 + k];
    MessagesAppend(pre + [errs[i]], post);
    MessagesAppend(pre, [errs[i]]);
  }

  /** Exactly two failing fields give their two messages, in field order. */
  lemma MessagesOfTwo(errs: seq<Option<string>>, i: nat, j: nat)
    requires i < j < |errs| && errs[i].Some? && errs[j].Some?
    requires forall k :: 0 <= k < |errs| && k != i && k != j ==> errs[k].None?
    ensures Messages(errs) == [errs[i].value, errs[j].value]
  {
    var head, tail := errs[..j], errs[j..];
    assert errs == head + tail;
    MessagesAppend(head, tail);
    MessagesOfOne(head, i);
    MessagesOfOne(tail, 0);
  }

  /** Appending one more part adds the separator and that part. */
  lemma {:induction false} JoinAppend(parts: seq<string>, p: string, sep: string)
    requires |parts| > 0
    ensures Join(parts + [p], sep) == Join(parts, sep) + sep + p
    decreases |parts|
  {
    var whole := parts + [p];
    if |parts| == 1 {
      assert whole[1..] == [p];
    } else {
      JoinAppend(parts[1..], p, sep);
      assert whole[0] == parts[0] && whole[1..] == parts[1..] + [p];
      var rest := Join(parts[1..], sep);
      assert Join(whole, sep) == parts[0] + sep + (rest + sep + p);
      assert parts[0] + sep + (rest + sep + p) == (parts[0] + sep + rest) + sep + p;
    }
  }

  /** The validated body of a parse-intent request. */
  datatype IntentRequest = IntentRequest(rawIntent: string, userType: string, walletAddress: Option<string>)

  /** The body of a parse-intent request. `walletAddress` may be missing,
      null or any string and never fails validation. */
  datatype IntentBody = IntentBody(rawIntent: Field, userType: Field, walletAddress: Field)

  function OptionalString(f: Field): Option<string> {
    if f.Str? then Some(f.s) else None
  }

  /** The parse-intent schema: a non-empty `rawIntent` and a `userType` of
      "human" or "agent"; a failure lists every message, joined by ", ". */
  function ValidateIntentBody(b: IntentBody): (r: Result<IntentRequest, string>)
    ensures r.Success? <==>
              b.rawIntent.Str? && b.rawIntent.s != ""
              && (b.userType == Str("human") || b.userType == Str("agent"))
    ensures r.Success? ==>
              r.value == IntentRequest(b.rawIntent.s, b.userType.s, OptionalString(b.walletAddress))
    ensures var e1 := StringFieldError(b.rawIntent, "Intent cannot be empty");
            var e2 := UserTypeError(b.userType);
            && (e1.Some? && e2.Some? ==> r == Failure(e1.value + ", " + e2.value))
            && (e1.Some? && e2.None? ==> r == Failure(e1.value))
            && (e1.None? && e2.Some? ==> r == Failure(e2.value))
    ensures b.rawIntent == Str("") ==> r.Failure? && JsString.StartsWith(r.error, "Intent cannot be empty")
    ensures b.rawIntent.Str? && b.rawIntent.s != "" && r.Failure? ==> r.error == UserTypeMessage
  {
    var errs := [StringFieldError(b.rawIntent, "Intent cannot be empty"), UserTypeError(b.userType)];
    var msgs := Messages(errs);
    if |msgs| == 0 then
      assert errs[0].None? && errs[1].None?;
      Result.Success(IntentRequest(b.rawIntent.s, b.userType.s, OptionalString(b.walletAddress)))
    else
      assert errs[2..] == [] && errs[1..][1..] == errs[2..];
      assert errs[0].None? ==> msgs == Messages(errs[1..]);
      assert errs[0].Some? && errs[1].Some? ==> msgs == [errs[0].value, errs[1].value] by {
        if errs[0].Some? && errs[1].Some? {
          MessagesOfTwo(errs, 0, 1);
        }
      }
      Failure(Join(msgs, ", "))
  }

  /** The validated body of a process-payment request. */
  datatype PaymentRequest = PaymentRequest(
    intentId: Id, walletAddress: string, amount: string, endpoint: string, params: Option<Params>)

  /** The body of a process-payment request; `params`, when present, is a
      JSON object. */
  datatype PaymentBody = PaymentBody(
    intentId: Field, walletAddress: Field, amount: Field, endpoint: Field, params: Option<Params>)

  /** The four field checks of the process-payment schema, in field order. */
  function PaymentFieldErrors(b: PaymentBody): (r: seq<Option<string>>)
    ensures |r| == 4
  {
    [StringFieldError(b.intentId, "Intent ID is required"),
     StringFieldError(b.walletAddress, "Wallet address is required"),
     StringFieldError(b.amount, "Amount is required"),
     StringFieldError(b.endpoint, "Endpoint is required")]
  }

  /** The process-payment schema: four non-empty strings. */
  function ValidatePaymentBody(b: PaymentBody): (r: Result<PaymentRequest, string>)
    ensures r.Success? <==>
              && b.intentId.Str? && b.intentId.s != ""
              && b.walletAddress.Str? && b.walletAddress.s != ""
              && b.amount.Str? && b.amount.s != ""
              && b.endpoint.Str? && b.endpoint.s != ""
    ensures r.Success? ==>
              r.value == PaymentRequest(b.intentId.s, b.walletAddress.s, b.amount.s, b.endpoint.s, b.params)
    ensures b.intentId == Str("") ==> r.Failure? && JsString.StartsWith(r.error, "Intent ID is required")
  {
    var errs := PaymentFieldErrors(b);
    var msgs := Messages(errs);
    if |msgs| == 0 then
      assert errs[0].None? && errs[1].None? && errs[2].None? && errs[3].None?;
      Result.Success(PaymentRequest(b.intentId.s, b.walletAddress.s, b.amount.s, b.endpoint.s, b.params))
    else
      Failure(Join(msgs, ", "))
  }

  /** One failing payment field: the details are exactly its message. */
  lemma PaymentOneFailure(b: PaymentBody, i: nat)
    requires i < 4 && PaymentFieldErrors(b)[i].Some?
    requires forall k :: 0 <= k < 4 && k != i ==> PaymentFieldErrors(b)[k].None?
    ensures ValidatePaymentBody(b) == Failure(PaymentFieldErrors(b)[i].value)
  {
    MessagesOfOne(PaymentFieldErrors(b), i);
  }

  /** Two failing payment fields: both messages, in field order, joined by
      ", ". */
  lemma PaymentTwoFailures(b: PaymentBody, i: nat, j: nat)
    requires i < j < 4 && PaymentFieldErrors(b)[i].Some? && PaymentFieldErrors(b)[j].Some?
    requires forall k :: 0 <= k < 4 && k != i && k != j ==> PaymentFieldErrors(b)[k].None?
    ensures ValidatePaymentBody(b) ==
              Failure(PaymentFieldErrors(b)[i].value + ", " + PaymentFieldErrors(b)[j].value)
  {
    var errs := PaymentFieldErrors(b);
    MessagesOfTwo(errs, i, j);
    JoinAppend([errs[i].value], errs[j].value, ", ");
    assert [errs[i].value] + [errs[j].value] == [errs[i].value, errs[j].value];
  }

  /** Four failing payment fields: all four messages, in field order,
      joined by ", ". */
  lemma PaymentFourFailures(b: PaymentBody)
    requires forall k :: 0 <= k < 4 ==> PaymentFieldErrors(b)[k].Some?
    ensures var e := PaymentFieldErrors(b);
            ValidatePaymentBody(b) ==
              Failure(e[0].value + ", " + e[1].value + ", " + e[2].value + ", " + e[3].value)
  {
    var e := PaymentFieldErrors(b);
    assert e == [Some(e[0].value), Some(e[1].value), Some(e[2].value), Some(e[3].value)];
    AllFourMessages(e[0].value, e[1].value, e[2].value, e[3].value, ", ");
  }

  /** Four failing fields: their four messages, joined in order. */
  lemma AllFourMessages(a: string, b: string, c: string, d: string, sep: string)
    ensures Join(Messages([Some(a), Some(b), Some(c), Some(d)]), sep) == a + sep + b + sep + c + sep + d
  {
    var errs := [Some(a), Some(b), Some(c), Some(d)];
    assert errs == [Some(a), Some(b)] + [Some(c), Some(d)];
    MessagesAppend([Some(a), Some(b)], [Some(c), Some(d)]);
    MessagesOfTwo([Some(a), Some(b)], 0, 1);
    MessagesOfTwo([Some(c), Some(d)], 0, 1);
    JoinAppend([a], b, sep);
    JoinAppend([a, b], c, sep);
    JoinAppend([a, b, c], d, sep);
    assert [a] + [b] == [a, b] && [a, b] + [c] == [a, b, c] && [a, b, c] + [d] == [a, b] + [c, d];
  }

  // ---------------------------------------------------------------------
  // Responses

  datatype Response =
    | ValidationFailed(details: string)
    | IntentParsed(intentId: Id, parsedIntent: ParsedIntent)
    | PaymentProcessing(paymentId: Id)
    | PaymentFound(payment: Payment)
    | PaymentNotFound
    | PaymentRequired(priceUSDC: string, endpoint: string)

  function StatusCode(r: Response): int {
    match r
    case ValidationFailed(_) => 400
    case PaymentNotFound => 404
    case PaymentRequired(_, _) => 402
    case _ => 200
  }

  /** A route's effect: the ledger afterwards and the reply. */
  datatype Step = Step(ledger: Storage.Ledger, response: Response)

  // ---------------------------------------------------------------------
  // POST /api/parse-intent

  /** Validates, resolves the intent (classifier outcome or keyword
      fallback) and stores it as "parsed"; an empty wallet is stored as
      null. An invalid body changes nothing. */
  function ParseIntentRoute(l: Storage.Ledger, b: IntentBody, classifier: Option<ParsedIntent>,
                            id: Id, now: Timestamp): (r: Step)
    ensures ValidateIntentBody(b).Failure? ==>
              r == Step(l, ValidationFailed(ValidateIntentBody(b).error)) && StatusCode(r.response) == 400
    ensures ValidateIntentBody(b).Success? ==>
              var raw := b.rawIntent.s;
              && r.response == IntentParsed(id, IntentParser.ParseIntent(classifier, raw))
              && Storage.GetIntent(r.ledger, id) == Some(Intent(
                   id, raw, IntentParser.ParseIntent(classifier, raw), b.userType.s,
                   if b.walletAddress.Str? && b.walletAddress.s != "" then Some(b.walletAddress.s) else None,
                   "parsed", now))
              && r.ledger == l.(intents := r.ledger.intents)
              && r.ledger.intents.rows == l.intents.rows[id := Storage.GetIntent(r.ledger, id).value]
              && (id !in l.intents.rows ==> r.ledger.intents.order == l.intents.order + [id])
              && (id in l.intents.rows ==> r.ledger.intents.order == l.intents.order)
    ensures Storage.Valid(l) ==> Storage.Valid(r.ledger)
  {
    match ValidateIntentBody(b)
    case Failure(details) => Step(l, ValidationFailed(details))
    case Success(req) =>
      var parsed := IntentParser.ParseIntent(classifier, req.rawIntent);
      var c := Storage.CreateIntent(l, InsertIntent(req.rawIntent, parsed, req.userType,
                                                    JsString.Or(req.walletAddress, None), "parsed"), id, now);
      Step(c.ledger, IntentParsed(c.record.id, parsed))
  }

  // ---------------------------------------------------------------------
  // POST /api/process-payment

  /** The work the payment route schedules to run after it replies. */
  datatype Job = Job(paymentId: Id, intentId: Id, endpoint: string, params: Option<Params>)

  datatype Accepted = Accepted(step: Step, job: Option<Job>)

  /** Validates, stores a pending USDC payment with no hash or block yet and
      "0" confirmations, replies "processing" and schedules the
      confirmation job. The intent id is not checked against the ledger. */
  function ProcessPaymentRoute(l: Storage.Ledger, b: PaymentBody, paymentId: Id, now: Timestamp): (r: Accepted)
    ensures ValidatePaymentBody(b).Failure? ==>
              r == Accepted(Step(l, ValidationFailed(ValidatePaymentBody(b).error)), None)
    ensures ValidatePaymentBody(b).Success? ==>
              var req := ValidatePaymentBody(b).value;
              && r.step.response == PaymentProcessing(paymentId)
              && r.job == Some(Job(paymentId, req.intentId, req.endpoint, req.params))
              && Storage.GetPayment(r.step.ledger, paymentId) == Some(Payment(
                   paymentId, req.intentId, req.amount, "USDC", None, req.walletAddress, "pending",
                   None, Some("0"), now, None))
              && r.step.ledger == l.(payments := r.step.ledger.payments)
              && r.step.ledger.payments.rows ==
                   l.payments.rows[paymentId := Storage.GetPayment(r.step.ledger, paymentId).value]
              && (paymentId !in l.payments.rows ==>
                    r.step.ledger.payments.order == l.payments.order + [paymentId])
              && (paymentId in l.payments.rows ==> r.step.ledger.payments.order == l.payments.order)
    ensures Storage.Valid(l) ==> Storage.Valid(r.step.ledger)
  {
    match ValidatePaymentBody(b)
    case Failure(details) => Accepted(Step(l, ValidationFailed(details)), None)
    case Success(req) =>
      var c := Storage.CreatePayment(l, InsertPayment(req.intentId, req.amount, "USDC", None,
                                                      req.walletAddress, "pending", None, Some("0")),
                                     paymentId, now);
      Accepted(Step(c.ledger, PaymentProcessing(c.record.id)),
               Some(Job(c.record.id, req.intentId, req.endpoint, req.params)))
  }

  /** The mock API behind each known path, each path reaching its own
      handler with the request's parameters (or none); any other path gets a
      generic success payload. */
  function Dispatch(endpoint: string, params: Option<Params>): (r: ApiResponse)
    ensures r.MockPayload? ==> r.params == params.GetOr(map[])
    ensures r.GenericSuccess? ==> r == GenericSuccess(true, "API response")
    ensures r == MockPayload(NftMints, params.GetOr(map[])) <==> endpoint == "/api/nft-mints"
    ensures r == MockPayload(GasPrice, params.GetOr(map[])) <==> endpoint == "/api/gas-price"
    ensures r == MockPayload(WhaleTxs, params.GetOr(map[])) <==> endpoint == "/api/whale-txs"
    ensures r == MockPayload(TokenPrice, params.GetOr(map[])) <==> endpoint == "/api/token-price"
    ensures r == MockPayload(Arbitrage, params.GetOr(map[])) <==> endpoint == "/api/arbitrage"
    ensures r == MockPayload(WalletBalance, params.GetOr(map[])) <==> endpoint == "/api/wallet-balance"
    ensures r == MockPayload(Swap, params.GetOr(map[])) <==> endpoint == "/api/swap"
  {
    var p := params.GetOr(map[]);
    match endpoint
    case "/api/nft-mints" => MockPayload(NftMints, p)
    case "/api/gas-price" => MockPayload(GasPrice, p)
    case "/api/whale-txs" => MockPayload(WhaleTxs, p)
    case "/api/token-price" => MockPayload(TokenPrice, p)
    case "/api/arbitrage" => MockPayload(Arbitrage, p)
    case "/api/wallet-balance" => MockPayload(WalletBalance, p)
    case "/api/swap" => MockPayload(Swap, p)
    case _ => GenericSuccess(true, "API response")
  }

  /** A path dispatches to a mock API exactly when the resolver's catalog
      lists it. */
  lemma DispatchCoversCatalog(endpoint: string, params: Option<Params>)
    ensures Dispatch(endpoint, params).MockPayload? <==>
              IntentParser.CatalogPrice(IntentParser.ApiEndpoints, endpoint).Some?
  {
  }

  /** The block number `String(floor(random * 1e6) + 1e6)` for a draw. */
  function BlockNumber(draw: nat): (r: string)
    ensures |r| > 0
    ensures forall i :: 0 <= i < |r| ==> '0' <= r[i] <= '9'
    ensures JsString.DecimalValue(r) == draw + 1000000
    ensures draw < 1000000 ==> |r| == 7
  {
    assert draw < 1000000 ==> |JsString.NatToDecimal(draw + 1000000)| == 7 by {
      if draw < 1000000 {
        assert JsString.Pow10(6) == 1000000;
        JsString.DecimalDigits(draw + 1000000, 6);
      }
    }
    JsString.NatToDecimal(draw + 1000000)
  }

  /** The deferred step: confirm the payment with the hash, block number and
      12 confirmations; compute the API response; mark the intent
      "fulfilled"; record the granted access with the hash as proof. Every
      other field and row is left as it was. The intent update silently
      does nothing for an unknown intent id and the access record is
      written regardless, appended last under its fresh id. */
  function Confirm(l: Storage.Ledger, job: Job, hexDigits: string, draw: nat, recordId: Id,
                   confirmedAt: Timestamp, recordedAt: Timestamp): (r: Storage.Ledger)
    ensures var txHash := "0x" + hexDigits;
            && (job.paymentId in l.payments.rows ==>
                  var p := Storage.GetPayment(r, job.paymentId);
                  && p.Some? && p.value.status == "confirmed"
                  && p.value.txHash == Some(txHash)
                  && p.value.blockNumber == Some(BlockNumber(draw))
                  && p.value.confirmations == Some("12")
                  && p.value.confirmedAt == Some(confirmedAt))
            && (job.paymentId !in l.payments.rows ==> r.payments == l.payments)
            && (job.intentId in l.intents.rows ==>
                  Storage.GetIntent(r, job.intentId) == Some(l.intents.rows[job.intentId].(status := "fulfilled")))
            && (job.intentId !in l.intents.rows ==> r.intents == l.intents)
            && Storage.GetAccessRecord(r, recordId) == Some(AccessRecord(
                 recordId, job.paymentId, job.intentId, job.endpoint,
                 Some(Dispatch(job.endpoint, job.params)), true, Some(txHash), recordedAt))
            && r.apiEndpoints == l.apiEndpoints
    ensures var txHash := "0x" + hexDigits;
            job.paymentId in l.payments.rows ==>
              && r.payments.order == l.payments.order
              && r.payments.rows == l.payments.rows[job.paymentId := l.payments.rows[job.paymentId].(
                   status := "confirmed", txHash := Some(txHash), blockNumber := Some(BlockNumber(draw)),
                   confirmations := Some("12"), confirmedAt := Some(confirmedAt))]
    ensures job.intentId in l.intents.rows ==>
              && r.intents.order == l.intents.order
              && r.intents.rows == l.intents.rows[job.intentId := l.intents.rows[job.intentId].(status := "fulfilled")]
    ensures r.accessRecords.rows == l.accessRecords.rows[recordId := Storage.GetAccessRecord(r, recordId).value]
    ensures recordId !in l.accessRecords.rows ==> r.accessRecords.order == l.accessRecords.order + [recordId]
    ensures Storage.Valid(l) ==> Storage.Valid(r)
  {
    var txHash := "0x" + hexDigits;
    var l1 := Storage.UpdatePaymentStatus(l, job.paymentId, "confirmed", Some(txHash),
                                          Some(BlockNumber(draw)), Some("12"), confirmedAt).ledger;
    var response := Dispatch(job.endpoint, job.params);
    var l2 := Storage.UpdateIntentStatus(l1, job.intentId, "fulfilled").ledger;
    Storage.CreateAccessRecord(l2, InsertAccessRecord(job.paymentId, job.intentId, job.endpoint,
                                                      Some(response), true, Some(txHash)),
                               recordId, recordedAt).ledger
  }

  /** The payment lifecycle: accepted as pending with no hash; after the
      deferred step it is confirmed, and the access record's proof is the
      payment's hash. */
  lemma PaymentLifecycle(l: Storage.Ledger, b: PaymentBody, paymentId: Id, now: Timestamp,
                         hexDigits: string, draw: nat, recordId: Id,
                         confirmedAt: Timestamp, recordedAt: Timestamp)
    requires Storage.Valid(l) && ValidatePaymentBody(b).Success?
    ensures var a := ProcessPaymentRoute(l, b, paymentId, now);
            var pending := Storage.GetPayment(a.step.ledger, paymentId);
            && pending.Some? && pending.value.status == "pending" && pending.value.txHash.None?
            && a.job.Some?
            && var l' := Confirm(a.step.ledger, a.job.value, hexDigits, draw, recordId, confirmedAt, recordedAt);
               var confirmed := Storage.GetPayment(l', paymentId);
               var record := Storage.GetAccessRecord(l', recordId);
               && Storage.Valid(l')
               && confirmed.Some? && confirmed.value.status == "confirmed"
               && confirmed.value.txHash.Some? && confirmed.value.txHash.value != ""
               && record.Some? && record.value.accessGranted
               && record.value.paymentId == paymentId
               && record.value.proofTxHash == confirmed.value.txHash
  {
  }

  // ---------------------------------------------------------------------
  // GET /api/payment-status/:paymentId

  function PaymentStatus(l: Storage.Ledger, paymentId: Id): (r: Response)
    ensures paymentId !in l.payments.rows <==> r == PaymentNotFound
    ensures paymentId in l.payments.rows ==> r == PaymentFound(l.payments.rows[paymentId])
    ensures StatusCode(r) == 404 <==> paymentId !in l.payments.rows
  {
    match Storage.GetPayment(l, paymentId)
    case None => PaymentNotFound
    case Some(p) => PaymentFound(p)
  }

  // ---------------------------------------------------------------------
  // GET /api/access-history

  /** Joins one record with the intent and payment whose ids it names. */
  function Enrich(intents: seq<Intent>, payments: seq<Payment>, x: AccessRecord): AccessHistoryItem {
    AccessHistoryItem(x, Storage.FindIntent(intents, x.intentId), Storage.FindPayment(payments, x.paymentId))
  }

  /** Every record when the wallet query is absent or empty, otherwise the
      records paid from that wallet; each joined with its intent and payment,
      or with nothing where the id names none. */
  function AccessHistory(l: Storage.Ledger, walletAddress: Option<string>): (r: seq<AccessHistoryItem>)
    requires Storage.Valid(l)
    ensures var records := if JsString.Truthy(walletAddress)
                           then Storage.AccessRecordsByWallet(l, walletAddress.value)
                           else Storage.AllAccessRecords(l);
            && |r| == |records|
            && forall i :: 0 <= i < |r| ==>
                 && r[i].record == records[i]
                 && r[i].intent == Storage.GetIntent(l, records[i].intentId)
                 && r[i].payment == Storage.GetPayment(l, records[i].paymentId)
  {
    var records := if JsString.Truthy(walletAddress)
                   then Storage.AccessRecordsByWallet(l, walletAddress.value)
                   else Storage.AllAccessRecords(l);
    var intents := Storage.AllIntents(l);
    var payments := Storage.AllPayments(l);
    Storage.FindIntentIsGet(l);
    Storage.FindPaymentIsGet(l);
    seq(|records|, i requires 0 <= i < |records| => Enrich(intents, payments, records[i]))
  }

  // ---------------------------------------------------------------------
  // GET /api/analytics

  /** `Math.round(100 * c / t)`, 0 for no payments, on exact rationals:
      the nearest integer, halves rounded up. */
  function SuccessRate(confirmed: nat, total: nat): (r: int)
    requires confirmed <= total
    ensures 0 <= r <= 100
    ensures total == 0 ==> r == 0
    ensures total > 0 ==> 2 * total * r - total <= 200 * confirmed < 2 * total * r + total
  {
    if total == 0 then 0
    else
      var d := 2 * total;
      var r := (200 * confirmed + total) / d;
      RoundingBounds(200 * confirmed + total, d, r);
      QuotientAtMost(200 * confirmed + total, d, r, 100);
      r
  }

  /** Euclidean division pins the quotient between two multiples. */
  lemma RoundingBounds(n: nat, d: nat, q: int)
    requires d > 0 && q == n / d
    ensures 0 <= q && d * q <= n < d * q + d
  {
  }

  /** A quotient is at most m when the dividend is below (m + 1) divisors. */
  lemma QuotientAtMost(n: nat, d: nat, q: int, m: nat)
    requires d > 0 && 0 <= q && d * q <= n < d * (m + 1)
    ensures q <= m
  {
    if q > m {
      assert d * q >= d * (m + 1) by {
        MultiplyMonotone(d, m + 1, q);
      }
    }
  }

  lemma MultiplyMonotone(d: nat, a: int, b: int)
    requires a <= b
    ensures d * a <= d * b
  {
  }

  datatype Analytics = Analytics(totalTransactions: nat, successfulPayments: nat, successRate: int)

  function IsConfirmed(p: Payment): bool { p.status == "confirmed" }

  /** Counts over all payments, or over one wallet's when the query is a
      non-empty string. */
  function AnalyticsRoute(l: Storage.Ledger, walletAddress: Option<string>): (r: Analytics)
    requires Storage.Valid(l)
    ensures var scope := if JsString.Truthy(walletAddress)
                         then Storage.PaymentsByWallet(l, walletAddress.value)
                         else Storage.AllPayments(l);
            && r.totalTransactions == |scope|
            && r.successfulPayments == |Seqs.Filter(scope, IsConfirmed)|
            && r.successfulPayments <= r.totalTransactions
            && 0 <= r.successRate <= 100
            && r.successRate == SuccessRate(r.successfulPayments, r.totalTransactions)
  {
    var scope := if JsString.Truthy(walletAddress)
                 then Storage.PaymentsByWallet(l, walletAddress.value)
                 else Storage.AllPayments(l);
    var confirmed := |Seqs.Filter(scope, IsConfirmed)|;
    Analytics(|scope|, confirmed, SuccessRate(confirmed, |scope|))
  }

  /** Every payment confirmed gives 100 and none gives 0. The converse of
      the first fails: rounding lifts 199 of 200 (99.5%) to 100. */
  lemma SuccessRateExtremes(confirmed: nat, total: nat)
    requires confirmed <= total
    ensures total > 0 && confirmed == total ==> SuccessRate(confirmed, total) == 100
    ensures confirmed == 0 ==> SuccessRate(confirmed, total) == 0
    ensures SuccessRate(199, 200) == 100
  {
    var r := SuccessRate(confirmed, total);
    if total > 0 {
      if r <= 99 {
        MultiplyMonotone(2 * total, r, 99);
      }
      if r >= 1 {
        MultiplyMonotone(2 * total, 1, r);
      }
    }
  }

  /** Analytics over payments that are all confirmed reports 100; over
      payments none of which is confirmed, 0. */
  lemma AnalyticsExtremes(l: Storage.Ledger, walletAddress: Option<string>)
    requires Storage.Valid(l)
    ensures var scope := if JsString.Truthy(walletAddress)
                         then Storage.PaymentsByWallet(l, walletAddress.value)
                         else Storage.AllPayments(l);
            var r := AnalyticsRoute(l, walletAddress);
            && (|scope| > 0 && (forall i :: 0 <= i < |scope| ==> scope[i].status == "confirmed") ==> r.successRate == 100)
            && ((forall i :: 0 <= i < |scope| ==> scope[i].status != "confirmed") ==> r.successRate == 0)
  {
    var scope := if JsString.Truthy(walletAddress)
                 then Storage.PaymentsByWallet(l, walletAddress.value)
                 else Storage.AllPayments(l);
    var r := AnalyticsRoute(l, walletAddress);
    SuccessRateExtremes(r.successfulPayments, r.totalTransactions);
    if forall i :: 0 <= i < |scope| ==> IsConfirmed(scope[i]) {
      Seqs.FilterAll(scope, IsConfirmed);
    }
    if forall i :: 0 <= i < |scope| ==> !IsConfirmed(scope[i]) {
      Seqs.FilterNone(scope, IsConfirmed);
    }
  }

  // ---------------------------------------------------------------------
  // POST /api/nft-mints, POST /api/gas-price

  /** The two paths that answer a direct request with 402 Payment Required,
      and the price each quotes. */
  function Challenge(path: string): (r: Option<Response>)
    ensures r.Some? <==> path == "/api/nft-mints" || path == "/api/gas-price"
    ensures r.Some? ==> StatusCode(r.value) == 402 && r.value.endpoint == path
  {
    match path
    case "/api/nft-mints" => Some(PaymentRequired("0.5", path))
    case "/api/gas-price" => Some(PaymentRequired("0.25", path))
    case _ => None
  }

  /** Each 402 challenge quotes the catalog's price for its path. */
  lemma ChallengeMatchesCatalog(path: string)
    requires Challenge(path).Some?
    ensures IntentParser.CatalogPrice(IntentParser.ApiEndpoints, path) == Some(Challenge(path).value.priceUSDC)
  {
  }
}

=== FILE: schema.dfy ===
/** Record shapes shared by the server and the client: the ledger's four
    entities, their insert forms, the parsed-intent descriptor and the
    client's transaction status. Ids and timestamps are opaque values
    supplied by the environment (`randomUUID`, `new Date()`). */
module Schema {
  import opened Wrappers

  type Id = string

  /** A clock reading; only equality and identity matter to the model. */
  type Timestamp = int

  /** A value of the intent descriptor's free-form `params` object. */
  datatype ParamValue = Text(text: string) | TextList(items: seq<string>)

  type Params = map<string, ParamValue>

  /** The action descriptor produced by intent resolution. Every field but
      `action` is optional, as in the source's interface. */
  datatype ParsedIntent = ParsedIntent(
    action: string,
    endpoint: Option<string>,
    params: Option<Params>,
    estimatedPrice: Option<string>,
    confidence: Option<real>)

  /** Which mock API produced a response. The mock payloads themselves are
      canned, random and time-dependent, so the model keeps only the handler
      and the parameters it was called with. */
  datatype MockHandler =
    NftMints | GasPrice | WhaleTxs | TokenPrice | Arbitrage | WalletBalance | Swap

  datatype ApiResponse =
    | MockPayload(handler: MockHandler, params: Params)
    | GenericSuccess(success: bool, data: string)

  datatype Intent = Intent(
    id: Id,
    rawIntent: string,
    parsedAction: ParsedIntent,
    userType: string,
    walletAddress: Option<string>,
    status: string,
    createdAt: Timestamp)

  datatype InsertIntent = InsertIntent(
    rawIntent: string,
    parsedAction: ParsedIntent,
    userType: string,
    walletAddress: Option<string>,
    status: string)

  datatype Payment = Payment(
    id: Id,
    intentId: Id,
    amount: string,
    currency: string,
    txHash: Option<string>,
    walletAddress: string,
    status: string,
    blockNumber: Option<string>,
    confirmations: Option<string>,
    createdAt: Timestamp,
    confirmedAt: Option<Timestamp>)

  datatype InsertPayment = InsertPayment(
    intentId: Id,
    amount: string,
    currency: string,
    txHash: Option<string>,
    walletAddress: string,
    status: string,
    blockNumber: Option<string>,
    confirmations: Option<string>)

  datatype AccessRecord = AccessRecord(
    id: Id,
    paymentId: Id,
    intentId: Id,
    endpoint: string,
    apiResponse: Option<ApiResponse>,
    accessGranted: bool,
    proofTxHash: Option<string>,
    createdAt: Timestamp)

  datatype InsertAccessRecord = InsertAccessRecord(
    paymentId: Id,
    intentId: Id,
    endpoint: string,
    apiResponse: Option<ApiResponse>,
    accessGranted: bool,
    proofTxHash: Option<string>)

  datatype ApiEndpoint = ApiEndpoint(
    id: Id,
    name: string,
    path: string,
    description: string,
    priceUSDC: string,
    category: string,
    isActive: bool,
    createdAt: Timestamp)

  datatype InsertApiEndpoint = InsertApiEndpoint(
    name: string,
    path: string,
    description: string,
    priceUSDC: string,
    category: string,
    isActive: bool)

  /** An access record joined with its intent and payment, as the
      access-history route returns it and the history table consumes it. */
  datatype AccessHistoryItem = AccessHistoryItem(
    record: AccessRecord,
    intent: Option<Intent>,
    payment: Option<Payment>)

  datatype TxPhase = Idle | Pending | Confirming | Success | Error

  /** The client's view of an in-flight transaction. */
  datatype TransactionStatus = TransactionStatus(
    status: TxPhase,
    txHash: Option<string>,
    error: Option<string>,
    step: Option<int>,
    totalSteps: Option<int>)
}

=== FILE: seqs.dfy ===
/** Order-preserving filtering and first-match search, the two list
    operations (`Array.prototype.filter` and `find`) the application is
    built from. */
module Seqs {
  import opened Wrappers

  /** a can be obtained from b by deleting elements. */
  ghost predicate IsSubsequence<T>(a: seq<T>, b: seq<T>)
    decreases |b|
  {
    |a| == 0 ||
    (|b| > 0 &&
      ((a[0] == b[0] && IsSubsequence(a[1..], b[1..])) || IsSubsequence(a, b[1..])))
  }

  /** `s.filter(p)`: exactly the elements satisfying p, in their original
      order. That each kept element appears as often as in s is
      `FilterKeepsCounts`. */
  function Filter<T>(s: seq<T>, p: T -> bool): (r: seq<T>)
    ensures |r| <= |s|
    ensures forall i :: 0 <= i < |r| ==> r[i] in s && p(r[i])
    ensures forall i :: 0 <= i < |s| && p(s[i]) ==> s[i] in r
    ensures IsSubsequence(r, s)
    decreases |s|
  {
    if |s| == 0 then []
    else
      var rest := Filter(s[1..], p);
      if p(s[0]) then
        assert ([s[0]] + rest)[1..] == rest;
        [s[0]] + rest
      else
        rest
  }

  /** Filtering drops no duplicates: the result is a sub-multiset of s, and
      every element satisfying p occurs in it exactly as often as in s. */
  lemma {:induction false} FilterKeepsCounts<T>(s: seq<T>, p: T -> bool)
    ensures multiset(Filter(s, p)) <= multiset(s)
    ensures forall i :: 0 <= i < |s| && p(s[i]) ==> multiset(Filter(s, p))[s[i]] == multiset(s)[s[i]]
    decreases |s|
  {
    if |s| > 0 {
      FilterKeepsCounts(s[1..], p);
      FilterStepCounts(s, p, Filter(s[1..], p));
    }
  }

  /** The counts carry over from the filtered tail to the whole sequence,
      whether or not its head is kept. */
  lemma FilterStepCounts<T>(s: seq<T>, p: T -> bool, rest: seq<T>)
    requires |s| > 0
    requires multiset(rest) <= multiset(s[1..])
    requires forall i :: 0 <= i < |s[1..]| && p(s[1..][i]) ==> multiset(rest)[s[1..][i]] == multiset(s[1..])[s[1..][i]]
    ensures var r := if p(s[0]) then [s[0]] + rest else rest;
            && multiset(r) <= multiset(s)
            && forall i :: 0 <= i < |s| && p(s[i]) ==> multiset(r)[s[i]] == multiset(s)[s[i]]
  {
    assert s == [s[0]] + s[1..];
    var r := if p(s[0]) then [s[0]] + rest else rest;
    forall i | 0 <= i < |s| && p(s[i])
      ensures multiset(r)[s[i]] == multiset(s)[s[i]]
    {
      if i > 0 {
        assert s[i] == s[1..][i - 1];
      } else if s[0] !in s[1..] {
        assert multiset(s[1..])[s[0]] == 0;
      } else {
        var j :| 0 <= j < |s[1..]| && s[1..][j] == s[0];
      }
    }
  }

  /** Filtering with a predicate that holds everywhere keeps the sequence. */
  lemma {:induction false} FilterAll<T>(s: seq<T>, p: T -> bool)
    requires forall i :: 0 <= i < |s| ==> p(s[i])
    ensures Filter(s, p) == s
    decreases |s|
  {
    if |s| > 0 {
      FilterAll(s[1..], p);
      assert [s[0]] + s[1..] == s;
    }
  }

  /** Filtering with a predicate that holds nowhere yields the empty sequence. */
  lemma FilterNone<T>(s: seq<T>, p: T -> bool)
    requires forall i :: 0 <= i < |s| ==> !p(s[i])
    ensures Filter(s, p) == []
  {
    if |s| > 0 {
      FilterNone(s[1..], p);
    }
  }

  /** Filters with predicates that agree on the elements give the same result. */
  lemma {:induction false} FilterCongruent<T>(s: seq<T>, p: T -> bool, q: T -> bool)
    requires forall i :: 0 <= i < |s| ==> p(s[i]) == q(s[i])
    ensures Filter(s, p) == Filter(s, q)
    decreases |s|
  {
    if |s| > 0 {
      FilterCongruent(s[1..], p, q);
    }
  }

  /** `s.find(p)`: the first element satisfying p, if any. */
  function FindFirst<T>(s: seq<T>, p: T -> bool): (r: Option<T>)
    ensures r.None? <==> forall i :: 0 <= i < |s| ==> !p(s[i])
    ensures r.Some? ==> exists i :: 0 <= i < |s| && s[i] == r.value && p(s[i])
                                    && forall j :: 0 <= j < i ==> !p(s[j])
    decreases |s|
  {
    if |s| == 0 then None
    else if p(s[0]) then Some(s[0])
    else
      var r := FindFirst(s[1..], p);
      FirstMatchShift(s, p, r);
      r
  }

  /** A first match in the tail of s, whose head fails p, is a first match in s. */
  lemma FirstMatchShift<T>(s: seq<T>, p: T -> bool, r: Option<T>)
    requires |s| > 0 && !p(s[0])
    requires r.Some? ==> exists i :: 0 <= i < |s[1..]| && s[1..][i] == r.value && p(s[1..][i])
                                     && forall j :: 0 <= j < i ==> !p(s[1..][j])
    ensures r.Some? ==> exists i :: 0 <= i < |s| && s[i] == r.value && p(s[i])
                                    && forall j :: 0 <= j < i ==> !p(s[j])
  {
    if r.Some? {
      var i :| 0 <= i < |s[1..]| && s[1..][i] == r.value && p(s[1..][i])
               && forall j :: 0 <= j < i ==> !p(s[1..][j]);
      assert s[i + 1] == r.value;
      assert forall j :: 0 < j < i + 1 ==> s[j] == s[1..][j - 1];
    }
  }

  /** Appending `x` and then `b` is appending `[x] + b`. */
  lemma AppendCons<T>(a: seq<T>, x: T, b: seq<T>)
    ensures (a + [x]) + b == a + ([x] + b)
  {
  }
}

=== FILE: storage.dfy ===
/** `MemStorage`: the in-memory ledger of intents, payments, access records
    and API endpoints, as a value threaded through state-transforming
    functions. Fresh ids (`randomUUID`) and clock readings (`new Date()`)
    are parameters. */
module Storage {
  import opened Wrappers
  import opened Schema
  import Table
  import Seqs
  import JsString

  datatype Ledger = Ledger(
    intents: Table.Table<Intent>,
    payments: Table.Table<Payment>,
    accessRecords: Table.Table<AccessRecord>,
    apiEndpoints: Table.Table<ApiEndpoint>)

  /** A create: the new ledger and the record it stored. */
  datatype Created<T> = Created(ledger: Ledger, record: T)

  /** An update: the new ledger and the updated record, or None when the id
      is unknown. */
  datatype Updated<T> = Updated(ledger: Ledger, record: Option<T>)

  function IntentKey(x: Intent): Id { x.id }
  function PaymentKey(x: Payment): Id { x.id }
  function AccessRecordKey(x: AccessRecord): Id { x.id }
  function ApiEndpointKey(x: ApiEndpoint): Id { x.id }

  /** Every table is a well-formed map whose records sit under their own id. */
  ghost predicate Valid(l: Ledger) {
    && Table.Valid(l.intents) && Table.Keyed(l.intents, IntentKey)
    && Table.Valid(l.payments) && Table.Keyed(l.payments, PaymentKey)
    && Table.Valid(l.accessRecords) && Table.Keyed(l.accessRecords, AccessRecordKey)
    && Table.Valid(l.apiEndpoints) && Table.Keyed(l.apiEndpoints, ApiEndpointKey)
  }

  // ---------------------------------------------------------------------
  // Insert forms: a stored record minus its generated fields.

  function IntentInsert(x: Intent): InsertIntent {
    InsertIntent(x.rawIntent, x.parsedAction, x.userType, x.walletAddress, x.status)
  }

  function PaymentInsert(x: Payment): InsertPayment {
    InsertPayment(x.intentId, x.amount, x.currency, x.txHash, x.walletAddress,
                  x.status, x.blockNumber, x.confirmations)
  }

  function AccessRecordInsert(x: AccessRecord): InsertAccessRecord {
    InsertAccessRecord(x.paymentId, x.intentId, x.endpoint, x.apiResponse,
                       x.accessGranted, x.proofTxHash)
  }

  function ApiEndpointInsert(x: ApiEndpoint): InsertApiEndpoint {
    InsertApiEndpoint(x.name, x.path, x.description, x.priceUSDC, x.category, x.isActive)
  }

  // ---------------------------------------------------------------------
  // Intents

  /** `createIntent`: stores the supplied fields under the fresh id. */
  function CreateIntent(l: Ledger, ins: InsertIntent, id: Id, now: Timestamp): (r: Created<Intent>)
    ensures IntentInsert(r.record) == ins && r.record.id == id && r.record.createdAt == now
    ensures GetIntent(r.ledger, id) == Some(r.record)
    ensures r.ledger.intents.rows == l.intents.rows[id := r.record]
    ensures id in l.intents.rows ==> r.ledger.intents.order == l.intents.order
    ensures id !in l.intents.rows ==> r.ledger.intents.order == l.intents.order + [id]
    ensures r.ledger == l.(intents := r.ledger.intents)
    ensures Valid(l) ==> Valid(r.ledger)
    ensures Valid(l) && id !in l.intents.rows ==> AllIntents(r.ledger) == AllIntents(l) + [r.record]
  {
    var x := Intent(id, ins.rawIntent, ins.parsedAction, ins.userType, ins.walletAddress,
                    ins.status, now);
    Table.SetFresh(l.intents, id, x);
    Created(l.(intents := Table.Set(l.intents, id, x)), x)
  }

  function GetIntent(l: Ledger, id: Id): Option<Intent> {
    Table.Get(l.intents, id)
  }

  function AllIntents(l: Ledger): seq<Intent>
    requires Valid(l)
  {
    Table.Values(l.intents)
  }

  /** `getIntentsByWallet`: exactly the intents with that wallet, in
      insertion order; an intent without a wallet never matches. */
  function IntentsByWallet(l: Ledger, walletAddress: string): (r: seq<Intent>)
    requires Valid(l)
    ensures forall i :: 0 <= i < |r| ==> r[i] in AllIntents(l) && r[i].walletAddress == Some(walletAddress)
    ensures forall x :: x in AllIntents(l) && x.walletAddress == Some(walletAddress) ==> x in r
    ensures Seqs.IsSubsequence(r, AllIntents(l))
  {
    Seqs.Filter(AllIntents(l), (x: Intent) => x.walletAddress == Some(walletAddress))
  }

  /** `updateIntentStatus`: replaces the status of a stored intent; an
      unknown id changes nothing. */
  function UpdateIntentStatus(l: Ledger, id: Id, status: string): (r: Updated<Intent>)
    ensures id !in l.intents.rows ==> r.record.None? && r.ledger == l
    ensures id in l.intents.rows ==>
              && r.record == Some(l.intents.rows[id].(status := status))
              && r.ledger.intents.rows == l.intents.rows[id := r.record.value]
              && r.ledger.intents.order == l.intents.order
    ensures r.ledger == l.(intents := r.ledger.intents)
    ensures Valid(l) ==> Valid(r.ledger)
  {
    match GetIntent(l, id)
    case None => Updated(l, None)
    case Some(x) =>
      var y := x.(status := status);
      Updated(l.(intents := Table.Set(l.intents, id, y)), Some(y))
  }

  /** Updating a status keeps the listing order: only the one position
      changes. */
  lemma UpdateIntentStatusInPlace(l: Ledger, id: Id, status: string)
    requires Valid(l) && id in l.intents.rows
    ensures var r := UpdateIntentStatus(l, id, status);
            AllIntents(r.ledger) == AllIntents(l)[Table.IndexOf(l.intents, id) := r.record.value]
  {
    Table.SetExistingKeepsOrder(l.intents, id, l.intents.rows[id].(status := status));
  }

  // ---------------------------------------------------------------------
  // Payments

  /** `createPayment`: stores the supplied fields under the fresh id, not
      yet confirmed. */
  function CreatePayment(l: Ledger, ins: InsertPayment, id: Id, now: Timestamp): (r: Created<Payment>)
    ensures PaymentInsert(r.record) == ins && r.record.id == id && r.record.createdAt == now
    ensures r.record.confirmedAt.None?
    ensures GetPayment(r.ledger, id) == Some(r.record)
    ensures r.ledger.payments.rows == l.payments.rows[id := r.record]
    ensures id in l.payments.rows ==> r.ledger.payments.order == l.payments.order
    ensures id !in l.payments.rows ==> r.ledger.payments.order == l.payments.order + [id]
    ensures r.ledger == l.(payments := r.ledger.payments)
    ensures Valid(l) ==> Valid(r.ledger)
    ensures Valid(l) && id !in l.payments.rows ==> AllPayments(r.ledger) == AllPayments(l) + [r.record]
  {
    var x := Payment(id, ins.intentId, ins.amount, ins.currency, ins.txHash, ins.walletAddress,
                     ins.status, ins.blockNumber, ins.confirmations, now, None);
    Table.SetFresh(l.payments, id, x);
    Created(l.(payments := Table.Set(l.payments, id, x)), x)
  }

  function GetPayment(l: Ledger, id: Id): Option<Payment> {
    Table.Get(l.payments, id)
  }

  function AllPayments(l: Ledger): seq<Payment>
    requires Valid(l)
  {
    Table.Values(l.payments)
  }

  /** `getPaymentsByWallet`: exactly the payments made from that wallet
      (case-sensitive comparison), in insertion order. */
  function PaymentsByWallet(l: Ledger, walletAddress: string): (r: seq<Payment>)
    requires Valid(l)
    ensures forall i :: 0 <= i < |r| ==> r[i] in AllPayments(l) && r[i].walletAddress == walletAddress
    ensures forall x :: x in AllPayments(l) && x.walletAddress == walletAddress ==> x in r
    ensures Seqs.IsSubsequence(r, AllPayments(l))
  {
    Seqs.Filter(AllPayments(l), (x: Payment) => x.walletAddress == walletAddress)
  }

  /** A wallet that made no payment gets the empty list. */
  lemma PaymentsByUnknownWallet(l: Ledger, walletAddress: string)
    requires Valid(l)
    requires forall k :: k in l.payments.rows ==> l.payments.rows[k].walletAddress != walletAddress
    ensures PaymentsByWallet(l, walletAddress) == []
  {
    forall x | x in AllPayments(l)
      ensures x.walletAddress != walletAddress
    {
      var i :| 0 <= i < |AllPayments(l)| && AllPayments(l)[i] == x;
      assert x == l.payments.rows[l.payments.order[i]];
    }
  }

  /** `updatePaymentStatus`: sets the status; a hash, block number or
      confirmation count that is absent or empty keeps the stored one
      (`||` merging); the confirmation time is stamped exactly when the new
      status is "confirmed". An unknown id changes nothing. */
  function UpdatePaymentStatus(l: Ledger, id: Id, status: string, txHash: Option<string>,
                               blockNumber: Option<string>, confirmations: Option<string>,
                               now: Timestamp): (r: Updated<Payment>)
    ensures id !in l.payments.rows ==> r.record.None? && r.ledger == l
    ensures id in l.payments.rows ==>
              var prior := l.payments.rows[id];
              && r.record.Some?
              && r.ledger.payments.rows == l.payments.rows[id := r.record.value]
              && r.ledger.payments.order == l.payments.order
              && r.record.value.status == status
              && r.record.value.txHash == (if JsString.Truthy(txHash) then txHash else prior.txHash)
              && r.record.value.blockNumber == (if JsString.Truthy(blockNumber) then blockNumber else prior.blockNumber)
              && r.record.value.confirmations == (if JsString.Truthy(confirmations) then confirmations else prior.confirmations)
              && (status == "confirmed" ==> r.record.value.confirmedAt == Some(now))
              && (status != "confirmed" ==> r.record.value.confirmedAt == prior.confirmedAt)
              && PaymentInsert(r.record.value).(status := prior.status, txHash := prior.txHash,
                   blockNumber := prior.blockNumber, confirmations := prior.confirmations)
                 == PaymentInsert(prior)
              && r.record.value.id == prior.id && r.record.value.createdAt == prior.createdAt
    ensures r.ledger == l.(payments := r.ledger.payments)
    ensures Valid(l) ==> Valid(r.ledger)
  {
    match GetPayment(l, id)
    case None => Updated(l, None)
    case Some(x) =>
      var y := x.(status := status,
                  txHash := JsString.Or(txHash, x.txHash),
                  blockNumber := JsString.Or(blockNumber, x.blockNumber),
                  confirmations := JsString.Or(confirmations, x.confirmations),
                  confirmedAt := if status == "confirmed" then Some(now) else x.confirmedAt);
      Updated(l.(payments := Table.Set(l.payments, id, y)), Some(y))
  }

  // ---------------------------------------------------------------------
  // Access records

  /** `createAccessRecord`: stores the supplied fields under the fresh id. */
  function CreateAccessRecord(l: Ledger, ins: InsertAccessRecord, id: Id, now: Timestamp): (r: Created<AccessRecord>)
    ensures AccessRecordInsert(r.record) == ins && r.record.id == id && r.record.createdAt == now
    ensures GetAccessRecord(r.ledger, id) == Some(r.record)
    ensures r.ledger.accessRecords.rows == l.accessRecords.rows[id := r.record]
    ensures r.ledger == l.(accessRecords := r.ledger.accessRecords)
    ensures Valid(l) ==> Valid(r.ledger)
    ensures Valid(l) && id !in l.accessRecords.rows ==>
              AllAccessRecords(r.ledger) == AllAccessRecords(l) + [r.record]
  {
    var x := AccessRecord(id, ins.paymentId, ins.intentId, ins.endpoint, ins.apiResponse,
                          ins.accessGranted, ins.proofTxHash, now);
    Table.SetFresh(l.accessRecords, id, x);
    Created(l.(accessRecords := Table.Set(l.accessRecords, id, x)), x)
  }

  function GetAccessRecord(l: Ledger, id: Id): Option<AccessRecord> {
    Table.Get(l.accessRecords, id)
  }

  function AllAccessRecords(l: Ledger): seq<AccessRecord>
    requires Valid(l)
  {
    Table.Values(l.accessRecords)
  }

  /** `allPayments.find(p => p.id === id)`. */
  function FindPayment(payments: seq<Payment>, id: Id): Option<Payment> {
    Table.FindById(payments, PaymentKey, id)
  }

  /** `allIntents.find(i => i.id === id)`. */
  function FindIntent(intents: seq<Intent>, id: Id): Option<Intent> {
    Table.FindById(intents, IntentKey, id)
  }

  /** The record's payment exists and was made from the wallet. */
  ghost predicate PaidFrom(l: Ledger, x: AccessRecord, walletAddress: string) {
    x.paymentId in l.payments.rows && l.payments.rows[x.paymentId].walletAddress == walletAddress
  }

  /** `getAccessRecordsByWallet`: a record is kept when the payment it
      names is found and was made from the wallet. */
  function AccessRecordsByWallet(l: Ledger, walletAddress: string): (r: seq<AccessRecord>)
    requires Valid(l)
    ensures forall i :: 0 <= i < |r| ==> r[i] in AllAccessRecords(l) && PaidFrom(l, r[i], walletAddress)
    ensures forall x :: x in AllAccessRecords(l) && PaidFrom(l, x, walletAddress) ==> x in r
    ensures Seqs.IsSubsequence(r, AllAccessRecords(l))
  {
    var payments := AllPayments(l);
    FindPaymentIsGet(l);
    Seqs.Filter(AllAccessRecords(l), (x: AccessRecord) =>
      var p := FindPayment(payments, x.paymentId);
      p.Some? && p.value.walletAddress == walletAddress)
  }

  /** In a valid ledger, searching the payment list by id finds exactly the
      stored payment, or nothing for an unknown id. */
  lemma FindPaymentIsGet(l: Ledger)
    requires Valid(l)
    ensures forall id :: FindPayment(AllPayments(l), id) == GetPayment(l, id)
  {
    forall id
      ensures FindPayment(AllPayments(l), id) == GetPayment(l, id)
    {
      Table.FindByIdIsGet(l.payments, PaymentKey, id);
    }
  }

  /** In a valid ledger, searching the intent list by id finds exactly the
      stored intent, or nothing for an unknown id. */
  lemma FindIntentIsGet(l: Ledger)
    requires Valid(l)
    ensures forall id :: FindIntent(AllIntents(l), id) == GetIntent(l, id)
  {
    forall id
      ensures FindIntent(AllIntents(l), id) == GetIntent(l, id)
    {
      Table.FindByIdIsGet(l.intents, IntentKey, id);
    }
  }

  /** `updateAccessRecordProof`: replaces the proof hash of a stored record;
      an unknown id changes nothing. */
  function UpdateAccessRecordProof(l: Ledger, id: Id, proofTxHash: string): (r: Updated<AccessRecord>)
    ensures id !in l.accessRecords.rows ==> r.record.None? && r.ledger == l
    ensures id in l.accessRecords.rows ==>
              && r.record == Some(l.accessRecords.rows[id].(proofTxHash := Some(proofTxHash)))
              && r.ledger.accessRecords.rows == l.accessRecords.rows[id := r.record.value]
              && r.ledger.accessRecords.order == l.accessRecords.order
    ensures r.ledger == l.(accessRecords := r.ledger.accessRecords)
    ensures Valid(l) ==> Valid(r.ledger)
  {
    match GetAccessRecord(l, id)
    case None => Updated(l, None)
    case Some(x) =>
      var y := x.(proofTxHash := Some(proofTxHash));
      Updated(l.(accessRecords := Table.Set(l.accessRecords, id, y)), Some(y))
  }

  /** Updating a proof hash keeps the listing order. */
  lemma UpdateAccessRecordProofInPlace(l: Ledger, id: Id, proofTxHash: string)
    requires Valid(l) && id in l.accessRecords.rows
    ensures var r := UpdateAccessRecordProof(l, id, proofTxHash);
            AllAccessRecords(r.ledger)
            == AllAccessRecords(l)[Table.IndexOf(l.accessRecords, id) := r.record.value]
  {
    Table.SetExistingKeepsOrder(l.accessRecords, id,
      l.accessRecords.rows[id].(proofTxHash := Some(proofTxHash)));
  }

  // ---------------------------------------------------------------------
  // API endpoints

  /** `createApiEndpoint`: stores the supplied fields under the fresh id. */
  function CreateApiEndpoint(l: Ledger, ins: InsertApiEndpoint, id: Id, now: Timestamp): (r: Created<ApiEndpoint>)
    ensures ApiEndpointInsert(r.record) == ins && r.record.id == id && r.record.createdAt == now
    ensures GetApiEndpoint(r.ledger, id) == Some(r.record)
    ensures r.ledger.apiEndpoints.rows == l.apiEndpoints.rows[id := r.record]
    ensures r.ledger == l.(apiEndpoints := r.ledger.apiEndpoints)
    ensures Valid(l) ==> Valid(r.ledger)
    ensures Valid(l) && id !in l.apiEndpoints.rows ==>
              AllApiEndpoints(r.ledger) == AllApiEndpoints(l) + [r.record]
  {
    var x := StoredEndpoint(ins, id, now);
    Table.SetFresh(l.apiEndpoints, id, x);
    Created(l.(apiEndpoints := Table.Set(l.apiEndpoints, id, x)), x)
  }

  function StoredEndpoint(ins: InsertApiEndpoint, id: Id, now: Timestamp): ApiEndpoint {
    ApiEndpoint(id, ins.name, ins.path, ins.description, ins.priceUSDC, ins.category, ins.isActive, now)
  }

  function GetApiEndpoint(l: Ledger, id: Id): Option<ApiEndpoint> {
    Table.Get(l.apiEndpoints, id)
  }

  function AllApiEndpoints(l: Ledger): seq<ApiEndpoint>
    requires Valid(l)
  {
    Table.Values(l.apiEndpoints)
  }

  /** `getApiEndpointByPath`: the first endpoint, in insertion order, with
      that path. */
  function ApiEndpointByPath(l: Ledger, path: string): (r: Option<ApiEndpoint>)
    requires Valid(l)
    ensures r.None? <==> forall i :: 0 <= i < |AllApiEndpoints(l)| ==> AllApiEndpoints(l)[i].path != path
    ensures r.Some? ==> exists i :: 0 <= i < |AllApiEndpoints(l)| && AllApiEndpoints(l)[i] == r.value
                                    && r.value.path == path
                                    && forall j :: 0 <= j < i ==> AllApiEndpoints(l)[j].path != path
  {
    Seqs.FindFirst(AllApiEndpoints(l), (e: ApiEndpoint) => e.path == path)
  }

  /** `getActiveApiEndpoints`: exactly the active endpoints, in insertion order. */
  function ActiveApiEndpoints(l: Ledger): (r: seq<ApiEndpoint>)
    requires Valid(l)
    ensures forall i :: 0 <= i < |r| ==> r[i] in AllApiEndpoints(l) && r[i].isActive
    ensures forall e :: e in AllApiEndpoints(l) && e.isActive ==> e in r
    ensures Seqs.IsSubsequence(r, AllApiEndpoints(l))
  {
    Seqs.Filter(AllApiEndpoints(l), (e: ApiEndpoint) => e.isActive)
  }

  // ---------------------------------------------------------------------
  // Construction and seeding

  /** The catalog written at start-up, in order. */
  const SeedEndpoints: seq<InsertApiEndpoint> := [
    InsertApiEndpoint("NFT Mints API", "/api/nft-mints", "Fetch top NFT mints in the last hour",
                      "0.5", "NFT", true),
    InsertApiEndpoint("Gas Price Oracle", "/api/gas-price", "Get current gas prices on Base network",
                      "0.25", "Analytics", true),
    InsertApiEndpoint("Whale Transaction Monitor", "/api/whale-txs", "Monitor large transactions on Base",
                      "1.0", "Analytics", true),
    InsertApiEndpoint("Token Price Oracle", "/api/token-price", "Real-time token price data",
                      "0.3", "Oracle", true),
    InsertApiEndpoint("DEX Arbitrage Scanner", "/api/arbitrage", "Find arbitrage opportunities across DEXs",
                      "2.0", "DeFi", true)
  ]

  function EmptyLedger(): (l: Ledger)
    ensures Valid(l)
  {
    Ledger(Table.Empty(), Table.Empty(), Table.Empty(), Table.Empty())
  }

  ghost predicate Distinct(ids: seq<Id>) {
    forall i, j :: 0 <= i < j < |ids| ==> ids[i] != ids[j]
  }

  /** `endpoints.forEach(e => create under a fresh id)`, in order. */
  function CreateApiEndpoints(l: Ledger, eps: seq<InsertApiEndpoint>, ids: seq<Id>, nows: seq<Timestamp>): Ledger
    requires |ids| == |eps| == |nows|
    decreases |eps|
  {
    if |eps| == 0 then l
    else CreateApiEndpoints(CreateApiEndpoint(l, eps[0], ids[0], nows[0]).ledger, eps[1..], ids[1..], nows[1..])
  }

  /** Creating endpoints under distinct fresh ids keeps the ledger valid and
      touches no other table. */
  lemma {:induction false} CreateApiEndpointsValid(l: Ledger, eps: seq<InsertApiEndpoint>, ids: seq<Id>, nows: seq<Timestamp>)
    requires |ids| == |eps| == |nows| && Valid(l) && Distinct(ids)
    requires forall i :: 0 <= i < |ids| ==> ids[i] !in l.apiEndpoints.rows
    ensures var r := CreateApiEndpoints(l, eps, ids, nows);
            Valid(r) && r == l.(apiEndpoints := r.apiEndpoints)
    decreases |eps|
  {
    if |eps| > 0 {
      var l1 := CreateApiEndpoint(l, eps[0], ids[0], nows[0]).ledger;
      FreshAfterFirst(l, eps, ids, nows);
      CreateApiEndpointsValid(l1, eps[1..], ids[1..], nows[1..]);
    }
  }

  /** The ids after the first stay fresh once the first endpoint is stored. */
  lemma FreshAfterFirst(l: Ledger, eps: seq<InsertApiEndpoint>, ids: seq<Id>, nows: seq<Timestamp>)
    requires |ids| == |eps| == |nows| > 0 && Distinct(ids)
    requires forall i :: 0 <= i < |ids| ==> ids[i] !in l.apiEndpoints.rows
    ensures Distinct(ids[1..])
    ensures var l1 := CreateApiEndpoint(l, eps[0], ids[0], nows[0]).ledger;
            forall i :: 0 <= i < |ids[1..]| ==> ids[1..][i] !in l1.apiEndpoints.rows
  {
    var l1 := CreateApiEndpoint(l, eps[0], ids[0], nows[0]).ledger;
    forall i | 0 <= i < |ids[1..]|
      ensures ids[1..][i] !in l1.apiEndpoints.rows
    {
      assert ids[1..][i] == ids[i + 1] != ids[0];
    }
  }

  /** Creating endpoints under distinct fresh ids appends them, in order, to
      the listing. */
  lemma {:induction false} CreateApiEndpointsAppends(l: Ledger, eps: seq<InsertApiEndpoint>, ids: seq<Id>, nows: seq<Timestamp>)
    requires |ids| == |eps| == |nows| && Valid(l) && Distinct(ids)
    requires forall i :: 0 <= i < |ids| ==> ids[i] !in l.apiEndpoints.rows
    ensures Valid(CreateApiEndpoints(l, eps, ids, nows))
    ensures AllApiEndpoints(CreateApiEndpoints(l, eps, ids, nows))
            == AllApiEndpoints(l) + StoredEndpoints(eps, ids, nows)
    decreases |eps|
  {
    CreateApiEndpointsValid(l, eps, ids, nows);
    if |eps| > 0 {
      var c := CreateApiEndpoint(l, eps[0], ids[0], nows[0]);
      FreshAfterFirst(l, eps, ids, nows);
      CreateApiEndpointsAppends(c.ledger, eps[1..], ids[1..], nows[1..]);
      assert c.record == StoredEndpoint(eps[0], ids[0], nows[0]);
      Seqs.AppendCons(AllApiEndpoints(l), c.record, StoredEndpoints(eps[1..], ids[1..], nows[1..]));
    }
  }

  /** The endpoints `eps` as stored under `ids`. */
  function StoredEndpoints(eps: seq<InsertApiEndpoint>, ids: seq<Id>, nows: seq<Timestamp>): (r: seq<ApiEndpoint>)
    requires |ids| == |eps| == |nows|
    ensures |r| == |eps|
    decreases |eps|
  {
    if |eps| == 0 then []
    else [StoredEndpoint(eps[0], ids[0], nows[0])] + StoredEndpoints(eps[1..], ids[1..], nows[1..])
  }

  /** Each stored endpoint carries its insert fields, its id and its own
      clock reading. */
  lemma {:induction false} StoredEndpointsFields(eps: seq<InsertApiEndpoint>, ids: seq<Id>, nows: seq<Timestamp>)
    requires |ids| == |eps| == |nows|
    ensures forall i :: 0 <= i < |eps| ==>
              && ApiEndpointInsert(StoredEndpoints(eps, ids, nows)[i]) == eps[i]
              && StoredEndpoints(eps, ids, nows)[i].id == ids[i]
              && StoredEndpoints(eps, ids, nows)[i].createdAt == nows[i]
    decreases |eps|
  {
    if |eps| > 0 {
      StoredEndpointsFields(eps[1..], ids[1..], nows[1..]);
      forall i | 1 <= i < |eps|
        ensures StoredEndpoints(eps, ids, nows)[i] == StoredEndpoints(eps[1..], ids[1..], nows[1..])[i - 1]
      {
      }
    }
  }

  /** The seed endpoints are active and have pairwise distinct paths. */
  lemma SeedEndpointsDistinctActive()
    ensures forall i :: 0 <= i < |SeedEndpoints| ==> SeedEndpoints[i].isActive
    ensures forall i, j :: 0 <= i < j < |SeedEndpoints| ==> SeedEndpoints[i].path != SeedEndpoints[j].path
  {
  }

  /** The constructor: empty tables, then the five seed endpoints, each
      under a fresh id and stamped with its own clock reading. */
  function Seeded(ids: seq<Id>, nows: seq<Timestamp>): (l: Ledger)
    requires |ids| == |SeedEndpoints| == |nows|
  {
    CreateApiEndpoints(EmptyLedger(), SeedEndpoints, ids, nows)
  }

  /** Storing active endpoints with distinct paths into an empty ledger
      lists exactly those endpoints as active, in order. */
  lemma {:induction false} ActiveAfterCreating(eps: seq<InsertApiEndpoint>, ids: seq<Id>, nows: seq<Timestamp>)
    requires |ids| == |eps| == |nows| && Distinct(ids)
    requires forall i :: 0 <= i < |eps| ==> eps[i].isActive
    ensures var l := CreateApiEndpoints(EmptyLedger(), eps, ids, nows);
            && Valid(l)
            && l.intents.order == [] && l.payments.order == [] && l.accessRecords.order == []
            && |ActiveApiEndpoints(l)| == |eps|
            && (forall i :: 0 <= i < |eps| ==> ApiEndpointInsert(ActiveApiEndpoints(l)[i]) == eps[i])
            && (forall i :: 0 <= i < |eps| ==>
                  ActiveApiEndpoints(l)[i].id == ids[i] && ActiveApiEndpoints(l)[i].createdAt == nows[i])
  {
    var l := CreateApiEndpoints(EmptyLedger(), eps, ids, nows);
    CreateApiEndpointsValid(EmptyLedger(), eps, ids, nows);
    CreateApiEndpointsAppends(EmptyLedger(), eps, ids, nows);
    var stored := StoredEndpoints(eps, ids, nows);
    assert AllApiEndpoints(l) == stored;
    StoredEndpointsFields(eps, ids, nows);
    Seqs.FilterAll(stored, (e: ApiEndpoint) => e.isActive);
  }

  /** Storing active endpoints with pairwise distinct paths into an empty
      ledger lists endpoints with pairwise distinct paths. */
  lemma {:induction false} ActivePathsDistinct(eps: seq<InsertApiEndpoint>, ids: seq<Id>, nows: seq<Timestamp>)
    requires |ids| == |eps| == |nows| && Distinct(ids)
    requires forall i :: 0 <= i < |eps| ==> eps[i].isActive
    requires forall i, j :: 0 <= i < j < |eps| ==> eps[i].path != eps[j].path
    ensures var l := CreateApiEndpoints(EmptyLedger(), eps, ids, nows);
            && Valid(l)
            && |ActiveApiEndpoints(l)| == |eps|
            && forall i, j :: 0 <= i < j < |ActiveApiEndpoints(l)| ==>
                 ActiveApiEndpoints(l)[i].path != ActiveApiEndpoints(l)[j].path
  {
    ActiveAfterCreating(eps, ids, nows);
    var active := ActiveApiEndpoints(CreateApiEndpoints(EmptyLedger(), eps, ids, nows));
    forall i, j | 0 <= i < j < |active|
      ensures active[i].path != active[j].path
    {
      assert ApiEndpointInsert(active[i]) == eps[i];
      assert ApiEndpointInsert(active[j]) == eps[j];
    }
  }

  /** After seeding, the active endpoints are the five seed entries in
      order, each under its own id and clock reading, with five distinct
      paths. */
  lemma SeededActiveEndpoints(ids: seq<Id>, nows: seq<Timestamp>)
    requires |ids| == |SeedEndpoints| == |nows| && Distinct(ids)
    ensures Valid(Seeded(ids, nows))
    ensures Seeded(ids, nows).intents.order == [] && Seeded(ids, nows).payments.order == []
    ensures Seeded(ids, nows).accessRecords.order == []
    ensures var active := ActiveApiEndpoints(Seeded(ids, nows));
            && |active| == 5
            && (forall i :: 0 <= i < 5 ==> ApiEndpointInsert(active[i]) == SeedEndpoints[i])
            && (forall i :: 0 <= i < 5 ==> active[i].id == ids[i] && active[i].createdAt == nows[i])
            && (forall i, j :: 0 <= i < j < 5 ==> active[i].path != active[j].path)
  {
    SeedEndpointsDistinctActive();
    ActiveAfterCreating(SeedEndpoints, ids, nows);
    ActivePathsDistinct(SeedEndpoints, ids, nows);
  }
}

=== FILE: table.dfy ===
/** A JavaScript `Map<string, V>`: a finite map from keys to values plus
    the insertion order that iteration follows. Setting an existing key
    replaces its value in place; setting a new key appends it. */
module Table {
  import opened Wrappers
  import Seqs

  datatype Table<V> = Table(rows: map<string, V>, order: seq<string>)

  /** The order lists every key exactly once. */
  ghost predicate Valid<V>(t: Table<V>) {
    && (forall i :: 0 <= i < |t.order| ==> t.order[i] in t.rows)
    && (forall k :: k in t.rows ==> k in t.order)
    && (forall i, j :: 0 <= i < j < |t.order| ==> t.order[i] != t.order[j])
  }

  function Empty<V>(): (t: Table<V>)
    ensures Valid(t)
    ensures |t.order| == 0
  {
    Table(map[], [])
  }

  /** `m.get(k)`. */
  function Get<V>(t: Table<V>, k: string): (r: Option<V>)
    ensures r.Some? <==> k in t.rows
    ensures r.Some? ==> r.value == t.rows[k]
  {
    if k in t.rows then Some(t.rows[k]) else None
  }

  /** `m.set(k, v)`. */
  function Set<V>(t: Table<V>, k: string, v: V): (t': Table<V>)
    ensures t'.rows == t.rows[k := v]
    ensures k in t.rows ==> t'.order == t.order
    ensures k !in t.rows ==> t'.order == t.order + [k]
    ensures Valid(t) ==> Valid(t')
  {
    if k in t.rows then Table(t.rows[k := v], t.order)
    else Table(t.rows[k := v], t.order + [k])
  }

  /** `Array.from(m.values())`: the values in insertion order. */
  function Values<V>(t: Table<V>): (vs: seq<V>)
    requires Valid(t)
    ensures |vs| == |t.order|
    ensures forall i :: 0 <= i < |t.order| ==> vs[i] == t.rows[t.order[i]]
  {
    seq(|t.order|, i requires 0 <= i < |t.order| => t.rows[t.order[i]])
  }

  /** Where a key sits in the insertion order. */
  function IndexOf<V>(t: Table<V>, k: string): (i: nat)
    requires Valid(t) && k in t.rows
    ensures i < |t.order| && t.order[i] == k
  {
    var i :| 0 <= i < |t.order| && t.order[i] == k; i
  }

  /** Replacing the value of a present key changes that one position of the
      iteration and nothing else. */
  lemma SetExistingKeepsOrder<V>(t: Table<V>, k: string, v: V)
    requires Valid(t) && k in t.rows
    ensures Values(Set(t, k, v)) == Values(t)[IndexOf(t, k) := v]
  {
    var i := IndexOf(t, k);
    forall j | 0 <= j < |t.order|
      ensures Values(Set(t, k, v))[j] == Values(t)[i := v][j]
    {
      if j != i {
        assert t.order[j] != k;
      }
    }
  }

  /** Setting a new key appends its value to the iteration. */
  lemma SetFreshAppends<V>(t: Table<V>, k: string, v: V)
    requires Valid(t) && k !in t.rows
    ensures Values(Set(t, k, v)) == Values(t) + [v]
  {
    forall j | 0 <= j < |t.order|
      ensures Values(Set(t, k, v))[j] == Values(t)[j]
    {
      assert t.order[j] != k;
    }
  }

  /** Setting a key absent from a well-formed table appends its value to
      the iteration. */
  lemma SetFresh<V>(t: Table<V>, k: string, v: V)
    ensures Valid(t) && k !in t.rows ==> Values(Set(t, k, v)) == Values(t) + [v]
  {
    if Valid(t) && k !in t.rows {
      SetFreshAppends(t, k, v);
    }
  }

  /** Every value is stored under the key its own id field names. */
  ghost predicate Keyed<V>(t: Table<V>, idOf: V -> string) {
    forall k :: k in t.rows ==> idOf(t.rows[k]) == k
  }

  /** `Array.from(m.values()).find(v => v.id === k)`: a linear search by
      the id field. */
  function FindById<V>(vs: seq<V>, idOf: V -> string, k: string): Option<V> {
    Seqs.FindFirst(vs, v => idOf(v) == k)
  }

  /** In a keyed table the linear search by id finds exactly the value the
      key lookup returns, or nothing when the key is absent. */
  lemma FindByIdIsGet<V>(t: Table<V>, idOf: V -> string, k: string)
    requires Valid(t) && Keyed(t, idOf)
    ensures FindById(Values(t), idOf, k) == Get(t, k)
  {
    var vs := Values(t);
    var r := FindById(vs, idOf, k);
    if k in t.rows {
      var i := IndexOf(t, k);
      assert idOf(vs[i]) == k;
    }
    if r.Some? {
      var i :| 0 <= i < |vs| && vs[i] == r.value && idOf(vs[i]) == k;
      assert vs[i] == t.rows[t.order[i]];
    }
  }
}

=== FILE: text_format.dfy ===
/** Display shortening shared by the client components: keep the head and
    the tail of a string around "...", or cut a long text after a maximum
    length. */
module TextFormat {
  import JsString

  /** `${s.slice(0, head)}...${s.slice(-tail)}`. */
  function TruncateMiddle(s: string, head: nat, tail: nat): (r: string)
    requires tail > 0
    ensures var h := if head <= |s| then head else |s|;
            var t := if tail <= |s| then tail else |s|;
            && |r| == h + 3 + t
            && r[..h] == s[..h]
            && r[h..h + 3] == "..."
            && r[h + 3..] == s[|s| - t..]
            && r == s[..h] + "..." + s[|s| - t..]
  {
    JsString.SlicePrefix(s, head);
    JsString.SliceSuffix(s, tail as int);
    JsString.Slice(s, 0, head) + "..." + JsString.SliceFrom(s, -(tail as int))
  }

  /** `text.length > max ? text.slice(0, max) + "..." : text`. */
  function TruncateText(text: string, max: nat): (r: string)
    ensures |text| <= max ==> r == text
    ensures |text| > max ==> |r| == max + 3 && r[..max] == text[..max] && r[max..] == "..."
    ensures |r| <= max + 3
  {
    if |text| > max then
      JsString.SlicePrefix(text, max);
      JsString.Slice(text, 0, max) + "..."
    else text
  }
}

=== FILE: transaction_status.dfy ===
/** The transaction status card: nothing while idle; otherwise a badge for
    the phase, a progress fraction, and an explorer link with a shortened
    hash when a hash is known. */
module TransactionStatusView {
  import opened Wrappers
  import opened Schema
  import JsString
  import Explorers
  import TextFormat

  /** A number is truthy when present and non-zero. */
  predicate TruthyNumber(n: Option<int>) {
    n.Some? && n.value != 0
  }

  /** `step / totalSteps * 100` when both are truthy, else 0, on exact
      rationals. */
  function Progress(status: TransactionStatus): (r: real)
    ensures !TruthyNumber(status.step) || !TruthyNumber(status.totalSteps) ==> r == 0.0
    ensures TruthyNumber(status.step) && TruthyNumber(status.totalSteps) ==>
              r * (status.totalSteps.value as real) == 100.0 * (status.step.value as real)
  {
    if TruthyNumber(status.step) && TruthyNumber(status.totalSteps)
    then (status.step.value as real) / (status.totalSteps.value as real) * 100.0
    else 0.0
  }

  /** The badge text for a phase. */
  function BadgeLabel(phase: TxPhase): (r: string)
    ensures phase.Success? <==> r == "Success"
    ensures phase.Error? <==> r == "Failed"
    ensures phase.Confirming? <==> r == "Confirming"
    ensures phase.Pending? || phase.Idle? <==> r == "Pending"
  {
    match phase
    case Success => "Success"
    case Error => "Failed"
    case Confirming => "Confirming"
    case _ => "Pending"
  }

  /** The badge style for a phase. */
  function BadgeVariant(phase: TxPhase): (r: string)
    ensures phase.Success? <==> r == "default"
    ensures phase.Error? <==> r == "destructive"
    ensures !phase.Success? && !phase.Error? <==> r == "secondary"
  {
    match phase
    case Success => "default"
    case Error => "destructive"
    case _ => "secondary"
  }

  /** `${hash.slice(0, 10)}...${hash.slice(-8)}`. A hash shorter than 10
      is kept whole before the "..." and the tail slice clamps to the whole
      hash once it is shorter than 8. */
  function TruncateTxHash(hash: string): (r: string)
    ensures |hash| >= 10 ==> |r| == 21 && r == hash[..10] + "..." + hash[|hash| - 8..]
    ensures |hash| < 10 ==> r == hash + "..." + hash[if |hash| < 8 then 0 else |hash| - 8..]
  {
    TextFormat.TruncateMiddle(hash, 10, 8)
  }

  datatype CardView = CardView(badge: string, variant: string, progress: real,
                               explorerUrl: Option<string>, shortHash: Option<string>,
                               errorText: Option<string>)

  /** The card, or nothing for an idle transaction. */
  function View(status: TransactionStatus, chainId: Option<int>): (r: Option<CardView>)
    ensures r.None? <==> status.status.Idle?
    ensures r.Some? ==>
              && r.value.badge == BadgeLabel(status.status)
              && r.value.variant == BadgeVariant(status.status)
              && r.value.progress == Progress(status)
              && (r.value.explorerUrl.Some? <==> JsString.Truthy(status.txHash))
              && (r.value.explorerUrl.Some? ==>
                    r.value.explorerUrl.value == Explorers.TxUrl(chainId, status.txHash.value))
              && (r.value.shortHash.Some? <==> JsString.Truthy(status.txHash))
              && (r.value.shortHash.Some? ==> r.value.shortHash.value == TruncateTxHash(status.txHash.value))
              && (r.value.errorText.Some? <==> JsString.Truthy(status.error))
              && (r.value.errorText.Some? ==> r.value.errorText == status.error)
  {
    if status.status.Idle? then None
    else
      var truthyHash := JsString.Truthy(status.txHash);
      Some(CardView(
        BadgeLabel(status.status),
        BadgeVariant(status.status),
        Progress(status),
        if truthyHash then Some(Explorers.TxUrl(chainId, status.txHash.value)) else None,
        if truthyHash then Some(TruncateTxHash(status.txHash.value)) else None,
        if JsString.Truthy(status.error) then status.error else None))
  }
}

=== FILE: wallet_button.dfy ===
/** The wallet button: "Connect Wallet" until a wallet is connected with a
    known address, then a menu labelled with the shortened address. */
module WalletButton {
  import opened Wrappers
  import JsString
  import TextFormat

  /** `${addr.slice(0, 6)}...${addr.slice(-4)}`. */
  function TruncateAddress(address: string): (r: string)
    ensures |address| >= 6 ==> |r| == 13
    ensures |address| >= 6 ==> r[..6] == address[..6]
    ensures |address| >= 4 ==> |r| >= 7 && r[|r| - 7..] == "..." + address[|address| - 4..]
  {
    TextFormat.TruncateMiddle(address, 6, 4)
  }

  datatype ButtonView = ConnectButton | WalletMenu(caption: string)

  /** The connect button when disconnected or the address is missing or
      empty; otherwise the menu showing the shortened address. */
  function View(isConnected: bool, address: Option<string>): (r: ButtonView)
    ensures r == ConnectButton <==> !isConnected || !JsString.Truthy(address)
    ensures r.WalletMenu? ==> r.caption == TruncateAddress(address.value)
  {
    if !isConnected || !JsString.Truthy(address) then ConnectButton
    else WalletMenu(TruncateAddress(address.value))
  }
}

=== FILE: wrappers.dfy ===
/** Optional values and results: JavaScript's `undefined`/`null` and the
    success/failure outcome of request validation. */
module Wrappers {

  datatype Option<+T> = None | Some(value: T) {

    /** The carried value, or `default` when there is none. */
    function GetOr(default: T): T {
      match this
      case Some(v) => v
      case None => default
    }
  }

  datatype Result<+T, +E> = Success(value: T) | Failure(error: E)
}
